=== FILE: README.md ===
# MineComply API authentication bridge and compliance rules, in Dafny

This project models the request-authentication path of the MineComply API, a
NestJS service. It also models the pure data logic around that path.

- **Relay slot.** The global slot through which a request interceptor hands the raw bearer token to the guard (`TokenStore`).
- **Guard.** The authorization guard: public routes, the stateless passport check, and the fallback to the identity provider. It also covers the guard's error normalisation (`Guard`).
- **Identity data.** The token payload and the resolved identity (`Interfaces`). The payload-to-identity validator is pinned down by the strategy's unit test (`JwtStrategy`). The remote verifier and its provider-user mapping are in `AuthService`.
- **`@CurrentUser` decorator.** The projection that hands a handler the identity or one of its fields (`CurrentUserDecorator`).
- **Local users.** E-mail sanitising, metadata look-up by key priority, and the keyed upsert of local users (`Users`).
- **Compliance rules.** Project and submission access control with its error ordering, validation of condition and date input on create, and the defaults written on create (`Compliance`).
- **Configuration.** CORS-origin list parsing and the defaults for the application settings (`AppConfig`).
- **Debug endpoints.** Bearer-token extraction, the base64url alphabet fix-up and credential truncation (`AuthDebug`).
- **JavaScript string operations.** `trim`, `toLowerCase`, `split(',')` and `split(/\s+/)`, which the rest of the model uses (`Strings`). `Wrappers` holds `Option` and `Result`.

Everything is a pure function over immutable datatypes. External effects become explicit inputs:

- The relay is an `Option<string>` threaded through the guard.
- The database is a record of maps and relations (`Compliance.Db`, `Users.UserTable`).
- Key generation is a parameter (`newId`, `freshId`).
- The settled outcome of the stateless check is an input.
- The identity provider is an abstract function from a token to a reply.
- Date parsing is an abstract partial function `parse`.
- Decoding a token segment is an abstract partial function `decode`.
- The environment is a map.

The strategy's own source (`supabase-jwt.strategy.ts`) is not part of this model. `JwtStrategy.Validate` is reconstructed from its unit test and from the payload interface.

## Model

| member | source | states |
|---|---|---|
| TokenStore.SetToken | src/auth/token-store.ts:7-19 | after a set, peek returns exactly the new token, whatever the slot held |
| TokenStore.Peek | src/auth/token-store.ts:21-25 | peek returns the stored token when there is one and nothing otherwise |
| TokenStore.Consume | src/auth/token-store.ts:27-34 | consume returns what peek returns; it empties the slot only for a truthy token and otherwise leaves the slot as it was |
| TokenStore.Clear | src/auth/token-store.ts:36-41 | clear leaves the slot empty, so a later peek or consume finds nothing |
| TokenStore.SetThenPeek | src/auth/token-store.ts:7-25 | peek after set returns the token |
| TokenStore.SetOverwrites | src/auth/token-store.ts:7-19 | a second set before any consume discards the first token |
| TokenStore.ConsumeTwice | src/auth/token-store.ts:27-34 | after setting a non-empty token, the first consume returns it and the second returns nothing |
| TokenStore.ConsumeEmpty | src/auth/token-store.ts:29-33 | consuming an empty slot returns nothing and changes nothing |
| TokenStore.ConsumeEmptyString | src/auth/token-store.ts:30-32 | an empty-string token is returned but stays stored, so every later consume returns it again |
| TokenStore.ClearIdempotent | src/auth/token-store.ts:36-41 | clearing twice is clearing once |
| Guard.AsUnauthorized | src/auth/guards/supabase-auth.guard.ts:77-88 | an Unauthorized exception is kept; an Error or a string supplies the message; anything else, truthy or not, or nothing, gives the generic exception |
| Guard.AsUnauthorizedIdempotent | src/auth/guards/supabase-auth.guard.ts:77-88 | normalising an already normalised exception changes nothing |
| Guard.HandleRequest | src/auth/guards/supabase-auth.guard.ts:45-51 | the user comes back iff the error is absent or falsy (an empty string, `0`, `false`) and a user is present; otherwise it fails with 'Authentication failed' |
| Guard.FalsyErrorIgnored | src/auth/guards/supabase-auth.guard.ts:46 | a falsy thrown value is treated exactly like no error |
| Guard.PassportOutcome | src/auth/guards/supabase-auth.guard.ts:45-51 | the stateless check accepts iff the verified payload has a subject, attaching the validator's identity; every rejection is thrown as 'Authentication failed', never a plain `false` |
| Guard.MalformedPayloadLooksLikeBadSignature | src/auth/guards/supabase-auth.guard.ts:45-51 | to the guard, a payload without a subject is indistinguishable from a failed signature |
| Guard.AttemptFallback | src/auth/guards/supabase-auth.guard.ts:53-75 | the relay is consumed; the fallback accepts iff the token is truthy and the remote verifier finds a user; on success exactly that identity is attached; on failure it throws the normalised original error and leaves the request unchanged |
| Guard.CanActivate | src/auth/guards/supabase-auth.guard.ts:23-43 | never settles to false; a public route is accepted untouched; a stateless true attaches passport's identity; a stateless false or throw takes the fallback, and only the throw supplies the original error |
| Guard.PublicRouteSkipsChecks | src/auth/guards/supabase-auth.guard.ts:29-31 | on a public route the verdict does not depend on the stateless outcome or the verifier, and the relay is untouched |
| Guard.StatelessSuccessSkipsFallback | src/auth/guards/supabase-auth.guard.ts:33-38 | a stateless true neither consumes the relay nor depends on the remote verifier |
| Guard.DeclinedAndRaisedShareFallback | src/auth/guards/supabase-auth.guard.ts:39-42 | a stateless false and a throw give the same acceptance, request and relay; only the rejection message differs |
| Guard.EmptyRelayRejects | src/auth/guards/supabase-auth.guard.ts:57-60 | on fallback, a missing or empty token is rejected and the verifier is not consulted |
| Guard.RemoteMissRejects | src/auth/guards/supabase-auth.guard.ts:62-67 | on fallback, a remote miss rejects the request and the relay ends empty |
| Guard.RelayedTokenIsVerified | src/auth/guards/supabase-auth.guard.ts:53-75 | for a relayed non-empty token the guard accepts iff the provider resolves that token, attaches exactly its identity, and leaves the relay empty |
| Guard.AttachedIdentityIsConsistent | src/auth/guards/supabase-auth.guard.ts:23-75 | every identity the guard attaches carries its own id as the `sub` of its raw claims |
| Interfaces.ToClaims | src/auth/interfaces/supabase-user.interface.ts:1-10 | the JSON object of a payload always carries its subject as a string `sub` |
| Interfaces.FromClaims | src/auth/interfaces/supabase-user.interface.ts:1-10 | a JSON object has a typed payload view iff it has the payload's shape; the view keeps `sub` and keeps additional claims apart from the named ones |
| Interfaces.ToClaimsReads | src/auth/interfaces/supabase-user.interface.ts:1-10 | each named claim of a payload reads back unchanged from its JSON object, and the additional claims are exactly the rest |
| Interfaces.PayloadRoundTrip | src/auth/interfaces/supabase-user.interface.ts:1-10 | typed payload to JSON object and back is the identity |
| Interfaces.ClaimsRoundTrip | src/auth/interfaces/supabase-user.interface.ts:1-10 | a well-shaped JSON object to typed payload and back is the identity |
| Interfaces.OnlySubjectRequired | src/auth/interfaces/supabase-user.interface.ts:2-8 | an object holding only `sub` is a payload with every optional claim absent, and no object without `sub` is a payload |
| Interfaces.AdditionalClaimsAllowed | src/auth/interfaces/supabase-user.interface.ts:9 | claims under new keys keep a payload well-shaped; the typed payload is the old one with exactly those claims added to the additional claims, every named claim unchanged |
| JwtStrategy.Validate | src/auth/strategies/supabase-jwt.strategy.spec.ts:14-41 | validation fails iff there is no non-empty string subject; on success the id is the subject and rawClaims is the whole payload |
| JwtStrategy.ValidateMapsPayload | src/auth/strategies/supabase-jwt.strategy.spec.ts:14-35 | for every payload with a subject: `sub` becomes `id`; `email`, `role` and `aud` pass through; the metadata maps are renamed unchanged; rawClaims is the payload |
| JwtStrategy.ValidateRejectsMissingSubject | src/auth/strategies/supabase-jwt.strategy.spec.ts:37-41 | a payload without `sub` yields an Unauthorized failure and no identity |
| AuthService.NewService | src/auth/supabase-auth.service.ts:14-28 | construction fails on a missing URL, then on a missing or empty service-role key; otherwise it succeeds with exactly the configured values, answering through the provider endpoint it was built with |
| AuthService.MapUserToAuthUser | src/auth/supabase-auth.service.ts:51-70 | the id and the raw `sub` are the provider id; null fields become absent, in the identity and as missing keys (never JSON null) in rawClaims; rawClaims is a well-shaped payload that mirrors the identity's fields and has no `exp` |
| AuthService.FallbackAgreesWithValidator | src/auth/supabase-auth.service.ts:51-70 | the mapped identity is exactly what the stateless validator builds from its rawClaims |
| AuthService.GetUserFromAccessToken | src/auth/supabase-auth.service.ts:30-48 | yields an identity iff the provider replies with a user and no error; a provider error, a missing user or a thrown exception all give null, so it never fails |
| CurrentUserDecorator.CurrentUser | src/auth/decorators/current-user.decorator.ts:6-24 | undefined without an identity; the identity itself without a key; otherwise exactly the named field, undefined when that field is absent |
| CurrentUserDecorator.ReadsOnlyUser | src/auth/decorators/current-user.decorator.ts:11-12 | the result depends on nothing in the request but `user` |
| CurrentUserDecorator.FieldsDetermineUser | src/auth/decorators/current-user.decorator.ts:22 | the per-key projections lose nothing: identities that every key reads alike are equal |
| Users.SanitizeEmail | src/users/users.service.ts:50-57 | absent for a missing, empty or all-whitespace input; otherwise a non-empty, trimmed, lower-case address |
| Users.SanitizeEmailNormalises | src/users/users.service.ts:55-56 | surrounding whitespace is dropped and the address lower-cased |
| Users.SanitizeEmailIdempotent | src/users/users.service.ts:50-57 | sanitising twice is sanitising once |
| Users.ResolveMetadataString | src/users/users.service.ts:59-75 | absent iff the metadata is absent or no key holds a non-blank string; otherwise the trimmed value of such a key |
| Users.ResolvePicksFirst | src/users/users.service.ts:67-72 | the first key in list order that holds a non-blank string decides the result |
| Users.PicksSecond | src/users/users.service.ts:67-72 | when only the second of three keys qualifies first, its trimmed value is the result |
| Users.PicksThird | src/users/users.service.ts:67-72 | when neither of the first two keys qualifies, the third decides |
| Users.ResolveThree | src/users/users.service.ts:67-72 | with three keys, the first usable one decides |
| Users.DisplayNamePriority | src/users/users.service.ts:16-20 | the display name prefers `full_name`, then `name`, then `displayName` |
| Users.PhonePriority | src/users/users.service.ts:21-25 | the phone number prefers `phone`, then `phone_number`, then `mobile` |
| Users.FindBySupabaseId | src/users/users.service.ts:45-47 | a row is found iff the table has one for that identity id, and it is that row |
| Users.EnsureUser | src/users/users.service.ts:12-43 | an upsert keyed by the identity's id: the row is then found by that id; create and update write the same derived columns; an existing row keeps its key; no other row changes |
| Users.EnsureUserKeepsOthers | src/users/users.service.ts:27-47 | after an upsert, looking up any other identity finds what it found before |
| Users.EnsureUserIdempotent | src/users/users.service.ts:27-40 | repeating the upsert for the same identity changes nothing |
| Compliance.BuildProjectAccessFilter | src/compliance/compliance.service.ts:283-290 | the filter selects a project iff the user is assigned to it or is a member of its organization |
| Compliance.ListProjects | src/compliance/compliance.service.ts:67-84 | the listed projects are exactly those the user may access |
| Compliance.AssertProjectAccess | src/compliance/compliance.service.ts:292-319 | NotFound for a missing project, checked before access; Forbidden without access; otherwise the project |
| Compliance.ListAgreesWithAssert | src/compliance/compliance.service.ts:283-319 | a project is listed iff the project access check passes |
| Compliance.AssertSubmissionAccess | src/compliance/compliance.service.ts:321-352 | NotFound for a missing submission; otherwise access is decided by the submission's project |
| Compliance.ToDateOrNull | src/compliance/compliance.service.ts:355-369 | null iff the value is missing or empty; BadRequest naming the field iff it is non-empty and unparseable; otherwise the parsed date |
| Compliance.CreateSubmission | src/compliance/compliance.service.ts:120-151 | an access failure is reported first, then an invalid `reportingFrom`, then an invalid `reportingTo`; success iff there is access and both dates are valid; the new row is a DRAFT by the current user with the given title, `summary` null when absent, and each reporting date null when missing or empty and otherwise the parsed date; nothing else changes |
| Compliance.AddComplianceRecord | src/compliance/compliance.service.ts:217-261 | an access failure is reported first; a given condition that is missing or from another project is a BadRequest, reported before an invalid `recordedAt`; an absent condition and every absent optional field are stored as null; nothing else changes |
| Compliance.CreateSubmissionKeepsConsistent | src/compliance/compliance.service.ts:131-140 | creating a submission under a fresh key preserves referential integrity |
| Compliance.AddComplianceRecordKeepsConsistent | src/compliance/compliance.service.ts:225-242 | adding a record preserves referential integrity; in particular a stored condition always belongs to the record's project |
| Compliance.GetProjectConditions | src/compliance/compliance.service.ts:86-96 | succeeds iff the project check passes, with exactly the project's conditions; a failed check is passed on |
| Compliance.ListProjectSubmissions | src/compliance/compliance.service.ts:98-118 | succeeds iff the project check passes, with exactly the project's submissions; a failed check is passed on |
| Compliance.GetSubmission | src/compliance/compliance.service.ts:153-195 | the result is the submission access check's own outcome; the second NotFound cannot fire |
| Compliance.ListSubmissionRecords | src/compliance/compliance.service.ts:197-215 | succeeds iff the submission check passes, with exactly the submission's records; a failed check is passed on |
| Compliance.GetCurrentUserContext | src/compliance/compliance.service.ts:30-65 | the local user resolved by the upsert, with exactly their organizations, their assigned projects and their accessible projects |
| Compliance.ContextProjectsAreAssignedOrOrganization | src/compliance/compliance.service.ts:33-57 | the accessible projects are exactly the existing projects that are assigned or belong to one of the user's organizations |
| AppConfig.TrimEach | src/config/application.config.ts:8 | each element is trimmed in place, and the length is kept |
| AppConfig.DropEmpty | src/config/application.config.ts:9 | the result keeps exactly the non-empty elements |
| AppConfig.DropEmptyAppend | src/config/application.config.ts:6-9 | filtering distributes over concatenation, so input order is preserved |
| AppConfig.DropEmptyKeeps | src/config/application.config.ts:9 | a list without empty elements passes the filter unchanged |
| AppConfig.ParseCorsOrigins | src/config/application.config.ts:1-10 | empty for a missing or empty value; every origin is non-empty, trimmed and comma-free; there are at most as many origins as commas plus one |
| AppConfig.ParseCorsOriginsJoin | src/config/application.config.ts:1-10 | a comma-joined list of clean origins parses back to itself |
| AppConfig.ParsePieces | src/config/application.config.ts:6-9 | a comma-joined list of pieces parses to the trimmed pieces with the empty ones dropped |
| AppConfig.BlankPieceVanishes | src/config/application.config.ts:6-9 | a whitespace-only piece contributes nothing after trimming and filtering |
| AppConfig.ParseCorsOriginsSkipsBlank | src/config/application.config.ts:6-9 | a blank entry between two commas does not change the parsed list |
| AppConfig.EnvOr | src/config/application.config.ts:19-25 | only a missing variable takes the default; a variable set to the empty string is kept |
| AppConfig.OriginsOrDefault | src/config/application.config.ts:13-26 | the parsed origins when there are any, otherwise the two local origins; never empty, every entry non-empty and trimmed |
| AppConfig.LoadAppConfig | src/config/application.config.ts:12-29 | every variable that is set is used as given, even when empty; missing ones take their stated defaults; the origin list is the parsed one when parsing yields any, otherwise the two local origins |
| AppConfig.LoadAppConfigReadsOnly | src/config/application.config.ts:12-29 | the settings depend only on the six variables they read |
| AppConfig.ConfiguredOriginsUsed | src/config/application.config.ts:15-26 | a configured list of clean origins is used as given |
| AuthDebug.AuthHeader | src/auth/debug.controller.ts:22 | the lower-case header wins whenever present; absent iff neither spelling is present |
| AuthDebug.BearerToken | src/auth/debug.controller.ts:25 | a token is present iff there is a header with at least two whitespace-separated fields, and it is the second field |
| AuthDebug.BearerTokenOfScheme | src/auth/debug.controller.ts:25 | for a scheme word, one space and a token, the token is extracted exactly (the one-space case of `BearerTokenAfterRun`) |
| AuthDebug.BearerTokenOfRuns | src/auth/debug.controller.ts:25 | for fields separated by whitespace runs of any length, the token is the second field |
| AuthDebug.BearerTokenAfterRun | src/auth/debug.controller.ts:25 | a scheme word, any run of whitespace, then a token: the token is extracted |
| AuthDebug.BearerTokenAfterLeadingRun | src/auth/debug.controller.ts:25 | with leading whitespace the extracted "token" is the scheme word |
| AuthDebug.SingleWordHasNoToken | src/auth/debug.controller.ts:25 | a header of a single word yields no token |
| AuthDebug.Base64UrlToStd | src/auth/debug.controller.ts:33 | each `-` becomes `+` and each `_` becomes `/` in place; no other character changes and the length is kept |
| AuthDebug.Base64UrlRoundTrip | src/auth/debug.controller.ts:42 | on URL-safe text, the reverse mapping restores the original |
| AuthDebug.Preview | src/auth/debug.controller.ts:52 | present iff the header is non-empty; exactly the first 16 characters of the credential (all of a shorter one) followed by an ellipsis |
| AuthDebug.PreviewIgnoresTail | src/auth/debug.controller.ts:52 | extending a credential of at least 16 characters leaves its preview unchanged |
| AuthDebug.DebugHeaders | src/auth/debug.controller.ts:21-56 | the preview of the header; header and payload are null unless a truthy token contains a dot, and otherwise are the decoded first two segments, each null on its own when it does not decode |
| AuthDebug.NoHeaderAllNull | src/auth/debug.controller.ts:22-25 | without an authorization header, authorization, header and payload are all null |
| AuthDebug.NoDotNoDecode | src/auth/debug.controller.ts:29 | a token without a dot never reaches the decoder |
| AuthDebug.CompactTokenSegments | src/auth/debug.controller.ts:29-30 | for a three-segment token behind a scheme word, header and payload are the decoded first and second segments |
| AuthDebug.WhoAmI | src/auth/debug.controller.ts:8-17 | echoes the attached identity as the decorator hands it over, and the raw authorization header with the lower-case name first |
| Strings.Trim | src/users/users.service.ts:55 | the result is trimmed and is the slice left after removing whitespace at both ends |
| Strings.TrimExact | src/users/users.service.ts:55 | trimming a trimmed text padded with whitespace gives the text |
| Strings.TrimIdempotent | src/users/users.service.ts:69-70 | trimming twice is trimming once |
| Strings.TrimEmptyIffAllSpace | src/users/users.service.ts:69 | the trim is empty iff the text is all whitespace |
| Strings.LowerFacts | src/users/users.service.ts:55 | lower-casing gives lower-case text, is idempotent and keeps a trimmed text trimmed |
| Strings.SplitOn | src/config/application.config.ts:7 | at least one piece, and no piece contains the separator |
| Strings.SplitOnCount | src/config/application.config.ts:7 | there is one more piece than there are separators |
| Strings.JoinSplit | src/config/application.config.ts:7 | joining the pieces with the separator restores the text |
| Strings.SplitJoin | src/config/application.config.ts:7 | splitting a join of separator-free pieces gives the pieces back |
| Strings.SplitSpaceRuns | src/auth/debug.controller.ts:25 | at least one field, and no field contains whitespace |
| Strings.SplitSpaceRunsJoin | src/auth/debug.controller.ts:25 | splitting whitespace-free fields joined by single spaces, no inner one empty, gives the fields back (the one-space case of `SplitSpaceRunsJoinRuns`) |
| Strings.SplitSpaceRunsLeadingRun | src/auth/debug.controller.ts:25 | a leading whitespace run of any length yields one empty field and is otherwise skipped |
| Strings.SplitSpaceRunsJoinRuns | src/auth/debug.controller.ts:25 | splitting whitespace-free fields separated by whitespace runs of any length gives the fields back, including an empty first or last field from a leading or trailing run |

## Left out

- JWT signature, expiry and JWKS verification are done by a crypto library in the strategy, which is not part of this model. The guard takes the settled stateless outcome as an input, and `Guard.PassportOutcome` takes an already verified payload.
- Promise and Observable resolution in `resolveCanActivateResult` (supabase-auth.guard.ts:91-104) is not modelled; the stateless outcome arrives already settled.
- Concurrent requests interleaving on the process-wide slot are not modelled; one sequential request is modelled.
- The Supabase client, Prisma queries and logging are replaced by abstract functions and in-memory maps. Result ordering (`orderBy`) and included relations (`include`, `_count`) are not modelled; lists are sets of keys.
- The compliance functions take the local user id that `Users.EnsureUser` resolves. The upsert's write to the user table is modelled in `Users` only.
- `new Date` parsing is the abstract `parse` parameter. Base64 decoding, UTF-8 decoding and `JSON.parse` in the debug endpoint are the abstract `decode` parameter.
- The `port` setting and its `parseInt` coercion are not modelled.
- class-validator DTOs, the Joi schema and the validation pipes are not modelled. Inputs are taken as already validated; a DTO-rejected empty `conditionId` would skip the condition check and be stored as given.
- main.ts, the modules, the app and health controllers and services, supabase.config.ts, the compliance controller, the storage module and the upload script are not modelled.
- Strings are sequences of code points, not UTF-16 code units. `AuthDebug.Preview` therefore counts code points where `slice(0, 16)` counts UTF-16 units.
- `toLowerCase` is modelled on ASCII letters only.
- JwtStrategy.Validate: it is reconstructed from the strategy's unit test, and several of its parts are assumptions:
  - an empty or non-string `sub` is rejected like a missing one;
  - named claims of the wrong JSON type read as absent;
  - the exception's message is not stated by the test and is modelled as the generic one.
- Header values are modelled as strings; Node's array-valued headers are not modelled.
- AuthService.NewService: `getOrThrow` rejects a missing URL; a URL configured as `undefined` is not distinguished from a missing one.

=== FILE: app_config.dfy ===
/** src/config/application.config.ts: the application settings built from the
    process environment, given here as a map from variable name to value. */
module AppConfig {
  import opened Wrappers
  import opened Strings

  /** `.map((origin) => origin.trim())`. */
  function TrimEach(parts: seq<string>): (r: seq<string>)
    ensures |r| == |parts|
    ensures forall i :: 0 <= i < |r| ==> r[i] == Trim(parts[i])
  {
    seq(|parts|, i requires 0 <= i < |parts| => Trim(parts[i]))
  }

  /** `.filter(Boolean)` on strings: the non-empty elements, in order. */
  function DropEmpty(xs: seq<string>): (r: seq<string>)
    ensures |r| <= |xs|
    ensures forall i :: 0 <= i < |r| ==> r[i] != ""
    ensures forall x :: x in r <==> x in xs && x != ""
  {
    if |xs| == 0 then []
    else if xs[0] == "" then DropEmpty(xs[1..])
    else [xs[0]] + DropEmpty(xs[1..])
  }

  /** Filtering distributes over concatenation, so the surviving elements
      keep their relative order. */
  lemma {:induction false} DropEmptyAppend(a: seq<string>, b: seq<string>)
    ensures DropEmpty(a + b) == DropEmpty(a) + DropEmpty(b)
    decreases |a|
  {
    if |a| > 0 {
      assert (a + b)[1..] == a[1..] + b;
      DropEmptyAppend(a[1..], b);
    } else {
      assert a + b == b;
    }
  }

  /** A list with no empty element passes the filter unchanged. */
  lemma {:induction false} DropEmptyKeeps(xs: seq<string>)
    requires forall i :: 0 <= i < |xs| ==> xs[i] != ""
    ensures DropEmpty(xs) == xs
    decreases |xs|
  {
    if |xs| > 0 {
      DropEmptyKeeps(xs[1..]);
    }
  }

  /** `parseCorsOrigins`: nothing for a missing or empty value; otherwise the
      comma-separated pieces, trimmed, with the empty ones dropped. */
  function ParseCorsOrigins(value: Option<string>): (origins: seq<string>)
    ensures value.None? || value.value == "" ==> origins == []
    ensures forall i :: 0 <= i < |origins| ==>
              origins[i] != "" && IsTrimmed(origins[i]) && ',' !in origins[i]
    ensures value.Some? ==> |origins| <= multiset(value.value)[','] + 1
  {
    if value.None? || value.value == "" then []
    else
      var pieces := SplitOn(value.value, ',');
      SplitOnCount(value.value, ',');
      var trimmed := TrimEach(pieces);
      var origins := DropEmpty(trimmed);
      forall i | 0 <= i < |origins| ensures IsTrimmed(origins[i]) && ',' !in origins[i] {
        assert origins[i] in trimmed;
      }
      origins
  }

  /** Writing a list of clean origins comma-separated and parsing it back
      gives the list. */
  lemma ParseCorsOriginsJoin(origins: seq<string>)
    requires |origins| >= 1
    requires forall i :: 0 <= i < |origins| ==>
               origins[i] != "" && IsTrimmed(origins[i]) && ',' !in origins[i]
    ensures ParseCorsOrigins(Some(Join(origins, ','))) == origins
  {
    JoinHead(origins, ',');
    SplitJoin(origins, ',');
    var trimmed := TrimEach(origins);
    forall i | 0 <= i < |origins| ensures trimmed[i] == origins[i] {
      TrimOfTrimmed(origins[i]);
    }
    assert trimmed == origins;
    DropEmptyKeeps(origins);
  }

  /** Parsing a comma-separated list of comma-free pieces trims each piece
      and drops the empty ones. */
  lemma ParsePieces(pieces: seq<string>)
    requires |pieces| >= 1
    requires forall i :: 0 <= i < |pieces| ==> ',' !in pieces[i]
    requires Join(pieces, ',') != ""
    ensures ParseCorsOrigins(Some(Join(pieces, ','))) == DropEmpty(TrimEach(pieces))
  {
    SplitJoin(pieces, ',');
  }

  lemma TrimEachAppend(a: seq<string>, b: seq<string>)
    ensures TrimEach(a + b) == TrimEach(a) + TrimEach(b)
  {
  }

  /** On the list of pieces: a blank piece vanishes after trimming and
      filtering. */
  lemma BlankPieceVanishes(a: seq<string>, blank: string, c: seq<string>)
    requires AllSpace(blank)
    ensures DropEmpty(TrimEach(a + [blank] + c)) == DropEmpty(TrimEach(a + c))
  {
    TrimEachAppend(a + [blank], c);
    TrimEachAppend(a, [blank]);
    TrimEachAppend(a, c);
    TrimEmptyIffAllSpace(blank);
    assert DropEmpty(TrimEach([blank])) == [];
    DropEmptyAppend(TrimEach(a) + TrimEach([blank]), TrimEach(c));
    DropEmptyAppend(TrimEach(a), TrimEach([blank]));
    DropEmptyAppend(TrimEach(a), TrimEach(c));
  }

  predicate CommaFree(parts: seq<string>) {
    forall i :: 0 <= i < |parts| ==> ',' !in parts[i]
  }

  lemma CommaFreeConcat(a: seq<string>, c: seq<string>)
    requires CommaFree(a) && CommaFree(c)
    ensures CommaFree(a + c)
  {
    forall i | 0 <= i < |a + c| ensures ',' !in (a + c)[i] {
      if i < |a| { assert (a + c)[i] == a[i]; }
      else { assert (a + c)[i] == c[i - |a|]; }
    }
  }

  /** Blank entries are skipped: an empty or whitespace-only piece between
      two commas contributes nothing. */
  lemma ParseCorsOriginsSkipsBlank(before: string, blank: string, after: string)
    requires AllSpace(blank) && ',' !in blank
    ensures ParseCorsOrigins(Some(before + "," + blank + "," + after))
         == ParseCorsOrigins(Some(before + "," + after))
  {
    var a := SplitOn(before, ',');
    var c := SplitOn(after, ',');
    JoinSplit(before, ',');
    JoinSplit(after, ',');
    JoinAppend(a, [blank], c);
    JoinConcat(a, c);
    CommaFreeConcat(a, [blank]);
    CommaFreeConcat(a + [blank], c);
    CommaFreeConcat(a, c);
    ParsePieces(a + [blank] + c);
    ParsePieces(a + c);
    BlankPieceVanishes(a, blank, c);
  }

  /** Joining two non-empty lists puts one separator between them. */
  lemma {:induction false} JoinConcat(a: seq<string>, c: seq<string>)
    requires |a| >= 1 && |c| >= 1
    ensures Join(a + c, ',') == Join(a, ',') + "," + Join(c, ',')
    decreases |a|
  {
    if |a| == 1 {
      assert (a + c)[1..] == c;
    } else {
      assert (a + c)[1..] == a[1..] + c;
      JoinConcat(a[1..], c);
    }
  }

  lemma JoinAppend(a: seq<string>, mid: seq<string>, c: seq<string>)
    requires |a| >= 1 && |mid| == 1 && |c| >= 1
    ensures Join(a + mid + c, ',') == Join(a, ',') + "," + mid[0] + "," + Join(c, ',')
  {
    JoinConcat(a, mid + c);
    assert a + mid + c == a + (mid + c);
    assert (mid + c)[1..] == c;
  }

  /** The origins used when the environment supplies none. */
  const DefaultOrigins: seq<string> := ["http://localhost:3000", "http://localhost:19006"]

  /** The `app` settings; the port is not modelled. */
  datatype AppSettings = AppSettings(
    name: string,
    description: string,
    version: string,
    environment: string,
    globalPrefix: string,
    corsOrigins: seq<string>)

  /** `process.env[key] ?? fallback`: only a missing variable takes the
      fallback; a variable set to the empty string is kept. */
  function EnvOr(env: map<string, string>, key: string, fallback: string): (v: string)
    ensures key in env ==> v == env[key]
    ensures key !in env ==> v == fallback
  {
    if key in env then env[key] else fallback
  }

  /** The variables the settings read. */
  const ReadKeys: set<string> :=
    {"APP_NAME", "APP_DESCRIPTION", "npm_package_version", "NODE_ENV", "GLOBAL_PREFIX", "CORS_ORIGINS"}

  /** The origin list of the settings: the parsed one, unless parsing yields
      none, when the two local origins take its place; so it is never empty. */
  function OriginsOrDefault(value: Option<string>): (o: seq<string>)
    ensures |ParseCorsOrigins(value)| > 0 ==> o == ParseCorsOrigins(value)
    ensures |ParseCorsOrigins(value)| == 0 ==> o == DefaultOrigins
    ensures |o| >= 1
    ensures forall i :: 0 <= i < |o| ==> o[i] != "" && IsTrimmed(o[i])
  {
    var parsed := ParseCorsOrigins(value);
    assert IsTrimmed(DefaultOrigins[0]) && IsTrimmed(DefaultOrigins[1]);
    if |parsed| > 0 then parsed else DefaultOrigins
  }

  /** The default export: each variable that is set is used as it is (even
      when empty), each missing one takes its default, and the origin list is
      the parsed one unless parsing yields none, when it falls back to the
      two local origins, so it is never empty. */
  function LoadAppConfig(env: map<string, string>): (c: AppSettings)
    ensures "APP_NAME" !in env ==> c.name == "MineComply API"
    ensures "APP_DESCRIPTION" !in env ==> c.description == "MineComply compliance management API"
    ensures "npm_package_version" !in env ==> c.version == "0.1.0"
    ensures "NODE_ENV" !in env ==> c.environment == "development"
    ensures "GLOBAL_PREFIX" !in env ==> c.globalPrefix == "api"
    ensures "APP_NAME" in env ==> c.name == env["APP_NAME"]
    ensures "APP_DESCRIPTION" in env ==> c.description == env["APP_DESCRIPTION"]
    ensures "npm_package_version" in env ==> c.version == env["npm_package_version"]
    ensures "NODE_ENV" in env ==> c.environment == env["NODE_ENV"]
    ensures "GLOBAL_PREFIX" in env ==> c.globalPrefix == env["GLOBAL_PREFIX"]
    ensures var parsed := ParseCorsOrigins(if "CORS_ORIGINS" in env then Some(env["CORS_ORIGINS"]) else None);
            && (|parsed| > 0 ==> c.corsOrigins == parsed)
            && (|parsed| == 0 ==> c.corsOrigins == DefaultOrigins)
            && (c.corsOrigins == DefaultOrigins <==> parsed in {[], DefaultOrigins})
    ensures |c.corsOrigins| >= 1
    ensures forall i :: 0 <= i < |c.corsOrigins| ==> c.corsOrigins[i] != "" && IsTrimmed(c.corsOrigins[i])
  {
    AppSettings(
      EnvOr(env, "APP_NAME", "MineComply API"),
      EnvOr(env, "APP_DESCRIPTION", "MineComply compliance management API"),
      EnvOr(env, "npm_package_version", "0.1.0"),
      EnvOr(env, "NODE_ENV", "development"),
      EnvOr(env, "GLOBAL_PREFIX", "api"),
      OriginsOrDefault(if "CORS_ORIGINS" in env then Some(env["CORS_ORIGINS"]) else None))
  }

  /** The settings depend on nothing but the variables they read. */
  lemma LoadAppConfigReadsOnly(e1: map<string, string>, e2: map<string, string>)
    requires forall k :: k in ReadKeys ==> (k in e1 <==> k in e2) && (k in e1 ==> e1[k] == e2[k])
    ensures LoadAppConfig(e1) == LoadAppConfig(e2)
  {
    assert "APP_NAME" in ReadKeys && "APP_DESCRIPTION" in ReadKeys && "npm_package_version" in ReadKeys;
    assert "NODE_ENV" in ReadKeys && "GLOBAL_PREFIX" in ReadKeys && "CORS_ORIGINS" in ReadKeys;
  }

  /** A configured list of clean origins is used as given. */
  lemma ConfiguredOriginsUsed(env: map<string, string>, origins: seq<string>)
    requires |origins| >= 1
    requires forall i :: 0 <= i < |origins| ==>
               origins[i] != "" && IsTrimmed(origins[i]) && ',' !in origins[i]
    requires "CORS_ORIGINS" in env && env["CORS_ORIGINS"] == Join(origins, ',')
    ensures LoadAppConfig(env).corsOrigins == origins
  {
    ParseCorsOriginsJoin(origins);
  }
}

=== FILE: auth_service.dfy ===
/** src/auth/supabase-auth.service.ts: the remote identity verifier. The
    provider's `auth.getUser` endpoint is an abstract function from an access
    token to the provider's reply; the network, the client library and the
    logger are not modelled. */
module AuthService {
  import opened Wrappers
  import opened Interfaces
  import JwtStrategy

  /** The provider's `User` record; a `null` or missing field is `None`. */
  datatype ProviderUser = ProviderUser(
    id: string,
    aud: string,
    email: Option<string>,
    role: Option<string>,
    appMetadata: Option<Metadata>,
    userMetadata: Option<Metadata>)

  /** What `auth.getUser(token)` does: resolve with `data.user` and `error`
      (either may be null), or throw. */
  datatype ProviderReply =
    | Replied(user: Option<ProviderUser>, error: Option<string>)
    | Threw(message: string)

  /** A constructed service: its configuration and the provider endpoint. */
  datatype Service = Service(
    url: string,
    serviceRoleKey: string,
    getUser: string -> ProviderReply)

  /** The constructor's failures: `getOrThrow` on a missing key, and the
      explicit service-role-key check. */
  datatype ConfigError = MissingConfig(key: string) | ServiceRoleKeyNotConfigured

  const UrlKey := "supabase.url"
  const ServiceRoleKeyKey := "supabase.serviceRoleKey"

  /** The constructor: the URL must be configured, and the service-role key
      must be configured and non-empty; the service then answers through the
      endpoint it was built with. */
  function NewService(config: map<string, string>, getUser: string -> ProviderReply)
    : (r: Result<Service, ConfigError>)
    ensures UrlKey !in config ==> r == Failure(MissingConfig(UrlKey))
    ensures UrlKey in config && (ServiceRoleKeyKey !in config || config[ServiceRoleKeyKey] == "")
            ==> r == Failure(ServiceRoleKeyNotConfigured)
    ensures r.Success? <==> UrlKey in config && ServiceRoleKeyKey in config && config[ServiceRoleKeyKey] != ""
    ensures r.Success? ==> r.value.url == config[UrlKey] && r.value.serviceRoleKey == config[ServiceRoleKeyKey]
    ensures r.Success? ==> r.value.getUser == getUser
  {
    if UrlKey !in config then Failure(MissingConfig(UrlKey))
    else if ServiceRoleKeyKey !in config || config[ServiceRoleKeyKey] == "" then
      Failure(ServiceRoleKeyNotConfigured)
    else Success(Service(config[UrlKey], config[ServiceRoleKeyKey], getUser))
  }

  /** The claim set rebuilt from a provider user: the same fields as the
      identity, and no `exp`. */
  function ProviderClaims(u: ProviderUser): JwtPayload {
    JwtPayload(u.id, Some(u.aud), None, u.email, u.role, u.appMetadata, u.userMetadata, map[])
  }

  /** `mapUserToAuthUser`: the identity's `id` and its raw `sub` are both the
      provider id, null fields become absent, and `rawClaims` mirrors the
      identity's own fields without an expiry. */
  function MapUserToAuthUser(u: ProviderUser): (r: AuthUser)
    ensures r.id == u.id && "sub" in r.rawClaims && r.rawClaims["sub"] == Str(u.id)
    ensures r.email == u.email && r.role == u.role && r.aud == Some(u.aud)
    ensures r.appMetadata == u.appMetadata && r.userMetadata == u.userMetadata
    ensures "exp" !in r.rawClaims && r.rawClaims.Keys <= NamedClaims
    ensures StrClaim(r.rawClaims, "email") == r.email && StrClaim(r.rawClaims, "role") == r.role
    ensures StrClaim(r.rawClaims, "aud") == r.aud
    ensures ObjClaim(r.rawClaims, "app_metadata") == r.appMetadata
    ensures ObjClaim(r.rawClaims, "user_metadata") == r.userMetadata
    ensures WellTyped(r.rawClaims)
    ensures ("email" in r.rawClaims <==> u.email.Some?) && ("role" in r.rawClaims <==> u.role.Some?)
    ensures ("app_metadata" in r.rawClaims <==> u.appMetadata.Some?)
    ensures ("user_metadata" in r.rawClaims <==> u.userMetadata.Some?)
  {
    ToClaimsReads(ProviderClaims(u));
    AuthUser(u.id, u.email, u.role, Some(u.aud), u.appMetadata, u.userMetadata,
             ToClaims(ProviderClaims(u)))
  }

  /** The two trust paths agree: the identity mapped from a provider user is
      exactly what the stateless validator builds from its `rawClaims`. */
  lemma FallbackAgreesWithValidator(u: ProviderUser)
    requires u.id != ""
    ensures JwtStrategy.Validate(MapUserToAuthUser(u).rawClaims) == Success(MapUserToAuthUser(u))
  {
    JwtStrategy.ValidateMapsPayload(ProviderClaims(u));
  }

  /** `getUserFromAccessToken`: an identity exactly when the provider replies
      with a user and no error; `None` for an error, a missing user or a
      thrown exception, so it never fails. */
  function GetUserFromAccessToken(svc: Service, token: string): (r: Option<AuthUser>)
    ensures svc.getUser(token).Threw? ==> r == None
    ensures r.Some? <==> svc.getUser(token).Replied? && svc.getUser(token).error.None?
                         && svc.getUser(token).user.Some?
    ensures r.Some? ==> r.value == MapUserToAuthUser(svc.getUser(token).user.value)
  {
    match svc.getUser(token)
    case Threw(_) => None
    case Replied(user, error) =>
      if error.Some? || user.None? then None else Some(MapUserToAuthUser(user.value))
  }
}

=== FILE: compliance.dfy ===
/** The access-control rules and write validation of
    src/compliance/compliance.service.ts, over an in-memory stand-in for the
    Prisma tables. Each table is a map from primary key to row; assignments
    and organization memberships are relations. Date parsing is an abstract
    partial function, and the database's generated keys are parameters. */
module Compliance {
  import opened Wrappers
  import Interfaces
  import Users

  /** A parsed instant; how text becomes one is the `parse` parameter. */
  type Date = int

  datatype Project = Project(organizationId: string, name: string)
  datatype Assignment = Assignment(userId: string, projectId: string)
  datatype Membership = Membership(userId: string, organizationId: string)
  datatype Condition = Condition(projectId: string)

  datatype SubmissionStatus = Draft | OtherStatus(name: string)

  datatype Submission = Submission(
    projectId: string,
    submittedById: string,
    status: SubmissionStatus,
    title: string,
    summary: Option<string>,
    reportingFrom: Option<Date>,
    reportingTo: Option<Date>)

  datatype ComplianceRecord = ComplianceRecord(
    submissionId: string,
    conditionId: Option<string>,
    category: string,
    parameter: string,
    measuredValue: Option<real>,
    unit: Option<string>,
    baselineValue: Option<real>,
    limitValue: Option<real>,
    recordedAt: Option<Date>,
    locationDescription: Option<string>,
    latitude: Option<real>,
    longitude: Option<real>,
    notes: Option<string>)

  datatype Db = Db(
    projects: map<string, Project>,
    assignments: set<Assignment>,
    memberships: set<Membership>,
    conditions: map<string, Condition>,
    submissions: map<string, Submission>,
    records: map<string, ComplianceRecord>)

  /** The HTTP exceptions the service throws, with their messages. */
  datatype ServiceError = NotFound(message: string) | Forbidden(message: string) | BadRequest(message: string)

  /** The access rule: a user may see a project exactly when assigned to it
      or a member of the organization that owns it. */
  predicate CanAccess(db: Db, userId: string, projectId: string) {
    projectId in db.projects
    && (Assignment(userId, projectId) in db.assignments
        || Membership(userId, db.projects[projectId].organizationId) in db.memberships)
  }

  /** One disjunct of a Prisma project filter. */
  datatype AccessClause = AssignedTo(userId: string) | MemberOfOrganization(userId: string)

  /** A Prisma `where: { OR: [...] }` over projects. */
  datatype AccessFilter = AnyOf(clauses: seq<AccessClause>)

  predicate Holds(db: Db, clause: AccessClause, projectId: string)
    requires projectId in db.projects
  {
    match clause
    case AssignedTo(u) => Assignment(u, projectId) in db.assignments
    case MemberOfOrganization(u) => Membership(u, db.projects[projectId].organizationId) in db.memberships
  }

  /** Whether an existing project satisfies a filter. */
  predicate Matches(db: Db, f: AccessFilter, projectId: string) {
    projectId in db.projects && exists i :: 0 <= i < |f.clauses| && Holds(db, f.clauses[i], projectId)
  }

  /** `buildProjectAccessFilter`: the filter selects exactly the projects
      the access rule allows. */
  function BuildProjectAccessFilter(userId: string): (f: AccessFilter)
    ensures forall db: Db, projectId :: Matches(db, f, projectId) <==> CanAccess(db, userId, projectId)
  {
    var f := AnyOf([AssignedTo(userId), MemberOfOrganization(userId)]);
    assert forall db: Db, projectId | projectId in db.projects ::
      Holds(db, f.clauses[0], projectId) || Holds(db, f.clauses[1], projectId) ==> Matches(db, f, projectId);
    f
  }

  /** `prisma.project.count` with an id and a filter. */
  function CountMatching(db: Db, projectId: string, f: AccessFilter): nat {
    |set id | id in db.projects && id == projectId && Matches(db, f, id)|
  }

  /** `listProjects` (and the project list of `getCurrentUserContext`): the
      ids of exactly the projects the user may access. Ordering is not
      modelled. */
  function ListProjects(db: Db, userId: string): (ids: set<string>)
    ensures forall id :: id in ids <==> CanAccess(db, userId, id)
  {
    var f := BuildProjectAccessFilter(userId);
    set id | id in db.projects && Matches(db, f, id)
  }

  /** `assertProjectAccess`: NotFound for a missing project, decided before
      access; otherwise Forbidden without access, else the project. */
  function AssertProjectAccess(db: Db, userId: string, projectId: string): (r: Result<Project, ServiceError>)
    ensures projectId !in db.projects ==> r == Failure(NotFound("Project not found"))
    ensures projectId in db.projects && !CanAccess(db, userId, projectId) ==>
              r == Failure(Forbidden("You do not have access to this project"))
    ensures r.Success? <==> CanAccess(db, userId, projectId)
    ensures r.Success? ==> r.value == db.projects[projectId]
  {
    if projectId !in db.projects then Failure(NotFound("Project not found"))
    else
      var hits := set id | id in db.projects && id == projectId && Matches(db, BuildProjectAccessFilter(userId), id);
      assert hits == {} <==> !CanAccess(db, userId, projectId) by {
        if CanAccess(db, userId, projectId) {
          assert projectId in hits;
        }
      }
      if CountMatching(db, projectId, BuildProjectAccessFilter(userId)) == 0 then
        Failure(Forbidden("You do not have access to this project"))
      else Success(db.projects[projectId])
  }

  /** The project list and the access check agree, because both evaluate
      the same filter. */
  lemma ListAgreesWithAssert(db: Db, userId: string, projectId: string)
    ensures projectId in ListProjects(db, userId) <==> AssertProjectAccess(db, userId, projectId).Success?
  {
  }

  /** `assertSubmissionAccess`: NotFound for a missing submission; otherwise
      access is decided by the submission's project. */
  function AssertSubmissionAccess(db: Db, userId: string, submissionId: string)
    : (r: Result<Submission, ServiceError>)
    ensures submissionId !in db.submissions ==> r == Failure(NotFound("Submission not found"))
    ensures submissionId in db.submissions && !CanAccess(db, userId, db.submissions[submissionId].projectId) ==>
              r == Failure(Forbidden("You do not have access to this submission"))
    ensures r.Success? <==> submissionId in db.submissions
                            && CanAccess(db, userId, db.submissions[submissionId].projectId)
    ensures r.Success? ==> r.value == db.submissions[submissionId]
  {
    if submissionId !in db.submissions then Failure(NotFound("Submission not found"))
    else
      var s := db.submissions[submissionId];
      var hits := set id | id in db.projects && id == s.projectId && Matches(db, BuildProjectAccessFilter(userId), id);
      assert hits == {} <==> !CanAccess(db, userId, s.projectId) by {
        if CanAccess(db, userId, s.projectId) {
          assert s.projectId in hits;
        }
      }
      if CountMatching(db, s.projectId, BuildProjectAccessFilter(userId)) == 0 then
        Failure(Forbidden("You do not have access to this submission"))
      else Success(s)
  }

  /** The message suffix of a date that does not parse. */
  const InvalidDate := " must be a valid ISO 8601 date"

  /** `toDateOrNull`: null for a missing or empty value, the parsed date for
      a parseable one, and BadRequest naming the field otherwise. */
  function ToDateOrNull(value: Option<string>, field: string, parse: string -> Option<Date>)
    : (r: Result<Option<Date>, ServiceError>)
    ensures r == Success(None) <==> value.None? || value.value == ""
    ensures r.Failure? <==> value.Some? && value.value != "" && parse(value.value).None?
    ensures r.Failure? ==> r.error == BadRequest(field + InvalidDate)
    ensures r.Success? && r.value.Some? ==> value.Some? && parse(value.value) == r.value
  {
    if value.None? || value.value == "" then Success(None)
    else
      match parse(value.value)
      case None => Failure(BadRequest(field + InvalidDate))
      case Some(d) => Success(Some(d))
  }

  /** The table after a create, the new row's generated key, and the row. */
  datatype Created<T> = Created(db: Db, id: string, row: T)

  /** `CreateSubmissionDto` after validation. */
  datatype SubmissionInput = SubmissionInput(
    title: string,
    summary: Option<string>,
    reportingFrom: Option<string>,
    reportingTo: Option<string>)

  /** `createSubmission` for an already resolved user: access to the project
      is checked first; then both dates are parsed; the new submission is a
      DRAFT by that user with `summary` null when absent. `newId` is the key
      the database generates. */
  function CreateSubmission(db: Db, userId: string, projectId: string, dto: SubmissionInput,
                            parse: string -> Option<Date>, newId: string)
    : (r: Result<Created<Submission>, ServiceError>)
    ensures AssertProjectAccess(db, userId, projectId).Failure? ==>
              r == Failure(AssertProjectAccess(db, userId, projectId).error)
    ensures CanAccess(db, userId, projectId) && ToDateOrNull(dto.reportingFrom, "reportingFrom", parse).Failure? ==>
              r == Failure(BadRequest("reportingFrom" + InvalidDate))
    ensures && CanAccess(db, userId, projectId)
            && ToDateOrNull(dto.reportingFrom, "reportingFrom", parse).Success?
            && ToDateOrNull(dto.reportingTo, "reportingTo", parse).Failure? ==>
              r == Failure(BadRequest("reportingTo" + InvalidDate))
    ensures r.Success? <==>
              && CanAccess(db, userId, projectId)
              && ToDateOrNull(dto.reportingFrom, "reportingFrom", parse).Success?
              && ToDateOrNull(dto.reportingTo, "reportingTo", parse).Success?
    ensures r.Success? ==>
              && r.value.row.status == Draft
              && r.value.row.submittedById == userId
              && r.value.row.projectId == projectId
              && r.value.row.title == dto.title
              && r.value.row.summary == dto.summary
              && r.value.row.reportingFrom == ToDateOrNull(dto.reportingFrom, "reportingFrom", parse).value
              && r.value.row.reportingTo == ToDateOrNull(dto.reportingTo, "reportingTo", parse).value
              && r.value.id == newId
              && r.value.db == db.(submissions := db.submissions[newId := r.value.row])
  {
    match AssertProjectAccess(db, userId, projectId)
    case Failure(e) => Failure(e)
    case Success(_) =>
      match ToDateOrNull(dto.reportingFrom, "reportingFrom", parse)
      case Failure(e) => Failure(e)
      case Success(from) =>
        match ToDateOrNull(dto.reportingTo, "reportingTo", parse)
        case Failure(e) => Failure(e)
        case Success(to) =>
          var row := Submission(projectId, userId, Draft, dto.title, dto.summary, from, to);
          Success(Created(db.(submissions := db.submissions[newId := row]), newId, row))
  }

  /** `CreateComplianceRecordDto` after validation. */
  datatype RecordInput = RecordInput(
    category: string,
    parameter: string,
    conditionId: Option<string>,
    measuredValue: Option<real>,
    unit: Option<string>,
    baselineValue: Option<real>,
    limitValue: Option<real>,
    recordedAt: Option<string>,
    locationDescription: Option<string>,
    latitude: Option<real>,
    longitude: Option<real>,
    notes: Option<string>)

  const ConditionMismatch := "The provided conditionId does not belong to this project"

  /** The condition check: a given `conditionId` must name a condition of
      the submission's own project. */
  predicate ConditionFits(db: Db, conditionId: Option<string>, projectId: string) {
    !Truthy(conditionId)
    || (conditionId.value in db.conditions && db.conditions[conditionId.value].projectId == projectId)
  }

  /** The row `addComplianceRecord` writes: every optional input that is
      absent is stored as null, everything else as given. */
  function RecordRow(submissionId: string, dto: RecordInput, recordedAt: Option<Date>): ComplianceRecord {
    ComplianceRecord(
      submissionId, dto.conditionId, dto.category, dto.parameter,
      dto.measuredValue, dto.unit, dto.baselineValue, dto.limitValue,
      recordedAt, dto.locationDescription, dto.latitude, dto.longitude, dto.notes)
  }

  /** `addComplianceRecord` for an already resolved user: submission access
      first, then the condition check (BadRequest when a given condition is
      missing or belongs to another project), then the date; the record is
      stored under the generated key `newId`. */
  function AddComplianceRecord(db: Db, userId: string, submissionId: string, dto: RecordInput,
                               parse: string -> Option<Date>, newId: string)
    : (r: Result<Created<ComplianceRecord>, ServiceError>)
    ensures AssertSubmissionAccess(db, userId, submissionId).Failure? ==>
              r == Failure(AssertSubmissionAccess(db, userId, submissionId).error)
    ensures AssertSubmissionAccess(db, userId, submissionId).Success?
            && !ConditionFits(db, dto.conditionId, db.submissions[submissionId].projectId) ==>
              r == Failure(BadRequest(ConditionMismatch))
    ensures AssertSubmissionAccess(db, userId, submissionId).Success?
            && ConditionFits(db, dto.conditionId, db.submissions[submissionId].projectId)
            && ToDateOrNull(dto.recordedAt, "recordedAt", parse).Failure? ==>
              r == Failure(BadRequest("recordedAt" + InvalidDate))
    ensures r.Success? <==>
              && AssertSubmissionAccess(db, userId, submissionId).Success?
              && ConditionFits(db, dto.conditionId, db.submissions[submissionId].projectId)
              && ToDateOrNull(dto.recordedAt, "recordedAt", parse).Success?
    ensures r.Success? ==>
              && r.value.row == RecordRow(submissionId, dto, ToDateOrNull(dto.recordedAt, "recordedAt", parse).value)
              && (dto.conditionId.None? ==> r.value.row.conditionId.None?)
              && r.value.id == newId
              && r.value.db == db.(records := db.records[newId := r.value.row])
  {
    match AssertSubmissionAccess(db, userId, submissionId)
    case Failure(e) => Failure(e)
    case Success(submission) =>
      if !ConditionFits(db, dto.conditionId, submission.projectId) then
        Failure(BadRequest(ConditionMismatch))
      else
        match ToDateOrNull(dto.recordedAt, "recordedAt", parse)
        case Failure(e) => Failure(e)
        case Success(recordedAt) =>
          var row := RecordRow(submissionId, dto, recordedAt);
          Success(Created(db.(records := db.records[newId := row]), newId, row))
  }

  /** Referential integrity the service maintains: submissions belong to
      existing projects, records to existing submissions, and a record's
      given condition belongs to its submission's project. */
  predicate Consistent(db: Db) {
    && (forall s :: s in db.submissions ==> db.submissions[s].projectId in db.projects)
    && (forall r :: r in db.records ==> db.records[r].submissionId in db.submissions)
    && (forall r :: r in db.records ==>
          ConditionFits(db, db.records[r].conditionId, db.submissions[db.records[r].submissionId].projectId))
  }

  /** Creating a submission under a fresh key keeps the store consistent. */
  lemma CreateSubmissionKeepsConsistent(db: Db, userId: string, projectId: string, dto: SubmissionInput,
                                        parse: string -> Option<Date>, newId: string)
    requires Consistent(db) && newId !in db.submissions
    ensures var r := CreateSubmission(db, userId, projectId, dto, parse, newId);
            r.Success? ==> Consistent(r.value.db)
  {
    var r := CreateSubmission(db, userId, projectId, dto, parse, newId);
    if r.Success? {
      var d := r.value.db;
      forall k | k in d.records
        ensures ConditionFits(d, d.records[k].conditionId, d.submissions[d.records[k].submissionId].projectId)
      {
        assert d.records[k].submissionId != newId;
      }
    }
  }

  /** Adding a record under a fresh key keeps the store consistent: in
      particular a stored condition always belongs to the record's project. */
  lemma AddComplianceRecordKeepsConsistent(db: Db, userId: string, submissionId: string, dto: RecordInput,
                                           parse: string -> Option<Date>, newId: string)
    requires Consistent(db) && newId !in db.records
    ensures var r := AddComplianceRecord(db, userId, submissionId, dto, parse, newId);
            r.Success? ==> Consistent(r.value.db)
  {
  }

  /** `getProjectConditions`: after the project check, the ids of the
      project's conditions. */
  function GetProjectConditions(db: Db, userId: string, projectId: string): (r: Result<set<string>, ServiceError>)
    ensures AssertProjectAccess(db, userId, projectId).Failure? ==>
              r == Failure(AssertProjectAccess(db, userId, projectId).error)
    ensures r.Success? <==> AssertProjectAccess(db, userId, projectId).Success?
    ensures r.Success? ==> CanAccess(db, userId, projectId)
    ensures r.Success? ==> forall c :: c in r.value <==> c in db.conditions && db.conditions[c].projectId == projectId
  {
    match AssertProjectAccess(db, userId, projectId)
    case Failure(e) => Failure(e)
    case Success(_) => Success(set c | c in db.conditions && db.conditions[c].projectId == projectId)
  }

  /** `listProjectSubmissions`: after the project check, the ids of the
      project's submissions. */
  function ListProjectSubmissions(db: Db, userId: string, projectId: string): (r: Result<set<string>, ServiceError>)
    ensures AssertProjectAccess(db, userId, projectId).Failure? ==>
              r == Failure(AssertProjectAccess(db, userId, projectId).error)
    ensures r.Success? <==> AssertProjectAccess(db, userId, projectId).Success?
    ensures r.Success? ==> CanAccess(db, userId, projectId)
    ensures r.Success? ==> forall s :: s in r.value <==> s in db.submissions && db.submissions[s].projectId == projectId
  {
    match AssertProjectAccess(db, userId, projectId)
    case Failure(e) => Failure(e)
    case Success(_) => Success(set s | s in db.submissions && db.submissions[s].projectId == projectId)
  }

  /** `getSubmission`: after the submission check, the submission itself; the
      second NotFound of the source cannot fire once the check has passed. */
  function GetSubmission(db: Db, userId: string, submissionId: string): (r: Result<Submission, ServiceError>)
    ensures r == AssertSubmissionAccess(db, userId, submissionId)
  {
    match AssertSubmissionAccess(db, userId, submissionId)
    case Failure(e) => Failure(e)
    case Success(_) =>
      if submissionId !in db.submissions then Failure(NotFound("Submission not found"))
      else Success(db.submissions[submissionId])
  }

  /** `listSubmissionRecords`: after the submission check, the ids of the
      submission's records. */
  function ListSubmissionRecords(db: Db, userId: string, submissionId: string): (r: Result<set<string>, ServiceError>)
    ensures AssertSubmissionAccess(db, userId, submissionId).Failure? ==>
              r == Failure(AssertSubmissionAccess(db, userId, submissionId).error)
    ensures r.Success? <==> AssertSubmissionAccess(db, userId, submissionId).Success?
    ensures r.Success? ==> submissionId in db.submissions
                           && CanAccess(db, userId, db.submissions[submissionId].projectId)
    ensures r.Success? ==> forall k :: k in r.value <==> k in db.records && db.records[k].submissionId == submissionId
  {
    match AssertSubmissionAccess(db, userId, submissionId)
    case Failure(e) => Failure(e)
    case Success(_) => Success(set k | k in db.records && db.records[k].submissionId == submissionId)
  }

  /** What `getCurrentUserContext` returns: the resolved local user, the
      organizations they belong to, the projects they are assigned to, and
      the projects they may access. */
  datatype UserContext = UserContext(
    user: Users.UserRecord,
    organizations: set<string>,
    assignedProjects: set<string>,
    projects: set<string>)

  /** `getCurrentUserContext`: resolves the identity to its local row with
      `ensureUser` (`freshId` is the key the database would generate), then
      reads the three relations for that row's id. */
  function GetCurrentUserContext(db: Db, users: Users.UserTable, authUser: Interfaces.AuthUser, freshId: string)
    : (c: UserContext)
    ensures c.user == Users.EnsureUser(users, authUser, freshId).user
    ensures forall o :: o in c.organizations <==> Membership(c.user.id, o) in db.memberships
    ensures forall p :: p in c.assignedProjects <==> Assignment(c.user.id, p) in db.assignments
    ensures forall p :: p in c.projects <==> CanAccess(db, c.user.id, p)
  {
    var user := Users.EnsureUser(users, authUser, freshId).user;
    var orgs := set m | m in db.memberships && m.userId == user.id :: m.organizationId;
    var assignedTo := set a | a in db.assignments && a.userId == user.id :: a.projectId;
    assert forall o :: Membership(user.id, o) in db.memberships ==> o in orgs;
    assert forall p :: Assignment(user.id, p) in db.assignments ==> p in assignedTo;
    UserContext(user, orgs, assignedTo, ListProjects(db, user.id))
  }

  /** The context's project list is exactly the existing projects the user is
      assigned to plus every project of the user's organizations. */
  lemma ContextProjectsAreAssignedOrOrganization(db: Db, users: Users.UserTable,
                                                 authUser: Interfaces.AuthUser, freshId: string, p: string)
    ensures var c := GetCurrentUserContext(db, users, authUser, freshId);
            p in c.projects <==>
              p in db.projects && (p in c.assignedProjects || db.projects[p].organizationId in c.organizations)
  {
  }
}

=== FILE: current_user.dfy ===
/** src/auth/decorators/current-user.decorator.ts: the parameter decorator
    that hands a handler the identity attached to its request, or one field
    of it. */
module CurrentUserDecorator {
  import opened Wrappers
  import opened Interfaces

  /** `keyof SupabaseAuthUser`. */
  datatype UserKey = Id | Email | Role | Aud | AppMetadata | UserMetadata | RawClaims

  /** What the handler receives: `undefined`, the whole identity, or the
      value of one field. */
  datatype Param = Undefined | WholeUser(user: AuthUser) | Field(value: Value)

  /** `user[key]` as a JSON value; `None` when the optional field is absent. */
  function FieldOf(u: AuthUser, key: UserKey): Option<Value> {
    match key
    case Id => Some(Str(u.id))
    case Email => StrValue(u.email)
    case Role => StrValue(u.role)
    case Aud => StrValue(u.aud)
    case AppMetadata => ObjValue(u.appMetadata)
    case UserMetadata => ObjValue(u.userMetadata)
    case RawClaims => Some(Obj(u.rawClaims))
  }

  /** The decorator's projection: `undefined` when no identity is attached,
      the identity itself without a key, and exactly the named field with
      one (`undefined` when that optional field is absent). */
  function CurrentUser(key: Option<UserKey>, request: Request): (p: Param)
    ensures request.user.None? ==> p == Undefined
    ensures request.user.Some? && key.None? ==> p == WholeUser(request.user.value)
    ensures request.user.Some? && key.Some? ==>
              && (p == Undefined <==> FieldOf(request.user.value, key.value).None?)
              && (p != Undefined ==> p == Field(FieldOf(request.user.value, key.value).value))
  {
    match request.user
    case None => Undefined
    case Some(u) =>
      match key
      case None => WholeUser(u)
      case Some(k) =>
        match FieldOf(u, k)
        case None => Undefined
        case Some(v) => Field(v)
  }

  /** The projection reads nothing but `request.user`. */
  lemma ReadsOnlyUser(key: Option<UserKey>, r1: Request, r2: Request)
    requires r1.user == r2.user
    ensures CurrentUser(key, r1) == CurrentUser(key, r2)
  {
  }

  /** The field projections lose nothing: two identities that every key
      reads alike are the same identity. */
  lemma FieldsDetermineUser(u: AuthUser, v: AuthUser)
    requires forall k: UserKey :: CurrentUser(Some(k), Request(Some(u), map[]))
                                == CurrentUser(Some(k), Request(Some(v), map[]))
    ensures u == v
  {
    var ru := Request(Some(u), map[]);
    var rv := Request(Some(v), map[]);
    assert CurrentUser(Some(Id), ru) == CurrentUser(Some(Id), rv);
    assert CurrentUser(Some(Email), ru) == CurrentUser(Some(Email), rv);
    assert CurrentUser(Some(Role), ru) == CurrentUser(Some(Role), rv);
    assert CurrentUser(Some(Aud), ru) == CurrentUser(Some(Aud), rv);
    assert CurrentUser(Some(AppMetadata), ru) == CurrentUser(Some(AppMetadata), rv);
    assert CurrentUser(Some(UserMetadata), ru) == CurrentUser(Some(UserMetadata), rv);
    assert CurrentUser(Some(RawClaims), ru) == CurrentUser(Some(RawClaims), rv);
  }
}

=== FILE: debug_controller.dfy ===
/** src/auth/debug.controller.ts: the two diagnostic endpoints. Decoding a
    token segment (base64 to bytes, bytes to UTF-8 text, `JSON.parse`) is an
    abstract partial function `decode`; `None` stands for a segment it cannot
    turn into a value, where the source catches the exception. */
module AuthDebug {
  import opened Wrappers
  import opened Strings
  import opened Interfaces
  import CurrentUserDecorator

  /** `headers?.authorization ?? headers?.Authorization`: the lower-case
      header wins whenever it is present, even when empty. */
  function AuthHeader(headers: map<string, string>): (a: Option<string>)
    ensures a.None? <==> "authorization" !in headers && "Authorization" !in headers
    ensures "authorization" in headers ==> a == Some(headers["authorization"])
    ensures "authorization" !in headers && a.Some? ==> a.value == headers["Authorization"]
  {
    if "authorization" in headers then Some(headers["authorization"])
    else if "Authorization" in headers then Some(headers["Authorization"])
    else None
  }

  /** `auth.split(/\s+/)[1]`: the second whitespace-separated field, absent
      when there is none. */
  function BearerToken(auth: Option<string>): (t: Option<string>)
    ensures auth.None? ==> t.None?
    ensures t.Some? ==> NoSpace(t.value)
    ensures auth.Some? ==> (t.Some? <==> |SplitSpaceRuns(auth.value)| >= 2)
    ensures t.Some? ==> auth.Some? && |SplitSpaceRuns(auth.value)| >= 2 && t.value == SplitSpaceRuns(auth.value)[1]
  {
    if auth.None? then None
    else
      var fields := SplitSpaceRuns(auth.value);
      if |fields| >= 2 then Some(fields[1]) else None
  }

  /** Any whitespace runs may separate the fields: the token is always the
      second field, so a header with a leading run yields the scheme word
      itself, the first field being empty. */
  lemma BearerTokenOfRuns(fields: seq<string>, runs: seq<string>)
    requires |fields| >= 2 && |fields| == |runs| + 1
    requires forall i :: 0 <= i < |fields| ==> NoSpace(fields[i])
    requires forall i :: 0 < i < |fields| - 1 ==> fields[i] != []
    requires forall j :: 0 <= j < |runs| ==> runs[j] != [] && AllSpace(runs[j])
    ensures BearerToken(Some(JoinRuns(fields, runs))) == Some(fields[1])
  {
    SplitSpaceRunsJoinRuns(fields, runs);
  }

  /** A scheme word, then any run of whitespace, then the token. */
  lemma BearerTokenAfterRun(scheme: string, run: string, token: string)
    requires NoSpace(scheme) && NoSpace(token)
    requires run != [] && AllSpace(run)
    ensures BearerToken(Some(scheme + run + token)) == Some(token)
  {
    assert JoinRuns([scheme, token], [run]) == scheme + run + token by {
      assert [scheme, token][1..] == [token];
    }
    SplitSpaceRunsJoinRuns([scheme, token], [run]);
  }

  /** With leading whitespace the second field is the scheme word. */
  lemma BearerTokenAfterLeadingRun(lead: string, scheme: string, run: string, token: string)
    requires lead != [] && AllSpace(lead) && run != [] && AllSpace(run)
    requires scheme != [] && NoSpace(scheme) && NoSpace(token)
    ensures BearerToken(Some(lead + scheme + run + token)) == Some(scheme)
  {
    assert JoinRuns(["", scheme, token], [lead, run]) == lead + scheme + run + token by {
      assert ["", scheme, token][1..] == [scheme, token];
      assert [scheme, token][1..] == [token];
      assert JoinRuns([scheme, token], [run]) == scheme + run + token;
    }
    SplitSpaceRunsJoinRuns(["", scheme, token], [lead, run]);
  }

  /** The usual header shape, a scheme word, one space, then the token: the
      case of a run of length one. */
  lemma BearerTokenOfScheme(scheme: string, token: string)
    requires NoSpace(scheme) && NoSpace(token)
    ensures BearerToken(Some(scheme + " " + token)) == Some(token)
  {
    BearerTokenAfterRun(scheme, " ", token);
  }

  /** A header that is a single word carries no token. */
  lemma SingleWordHasNoToken(word: string)
    requires NoSpace(word)
    ensures BearerToken(Some(word)).None?
  {
    SplitSpaceRunsPrefix(word, "");
    assert word + "" == word;
  }

  /** The base64url to base64 fix-up of one character. */
  function UrlCharToStd(c: char): char {
    if c == '-' then '+' else if c == '_' then '/' else c
  }

  function StdCharToUrl(c: char): char {
    if c == '+' then '-' else if c == '/' then '_' else c
  }

  /** `.replace(/-/g, '+').replace(/_/g, '/')`: every `-` becomes `+`, every
      `_` becomes `/`, and every other character is kept in place. */
  function Base64UrlToStd(s: string): (r: string)
    ensures |r| == |s|
    ensures '-' !in r && '_' !in r
    ensures forall i :: 0 <= i < |s| && s[i] == '-' ==> r[i] == '+'
    ensures forall i :: 0 <= i < |s| && s[i] == '_' ==> r[i] == '/'
    ensures forall i :: 0 <= i < |s| && s[i] != '-' && s[i] != '_' ==> r[i] == s[i]
  {
    seq(|s|, i requires 0 <= i < |s| => UrlCharToStd(s[i]))
  }

  /** The reverse mapping, from the standard alphabet to the URL-safe one. */
  function Base64StdToUrl(s: string): (r: string)
    ensures |r| == |s|
    ensures '+' !in r && '/' !in r
    ensures forall i :: 0 <= i < |s| && s[i] == '+' ==> r[i] == '-'
    ensures forall i :: 0 <= i < |s| && s[i] == '/' ==> r[i] == '_'
    ensures forall i :: 0 <= i < |s| && s[i] != '+' && s[i] != '/' ==> r[i] == s[i]
  {
    seq(|s|, i requires 0 <= i < |s| => StdCharToUrl(s[i]))
  }

  /** The fix-up loses nothing on URL-safe text: mapping back restores it. */
  lemma Base64UrlRoundTrip(s: string)
    requires '+' !in s && '/' !in s
    ensures Base64StdToUrl(Base64UrlToStd(s)) == s
  {
    var r := Base64StdToUrl(Base64UrlToStd(s));
    forall i | 0 <= i < |s| ensures r[i] == s[i] {
      assert s[i] != '+' && s[i] != '/';
    }
  }

  const Ellipsis: char := '\U{2026}'

  /** `auth ? `${auth.slice(0, 16)}…` : null`: at most the first sixteen
      characters of the credential, followed by an ellipsis. */
  function Preview(auth: Option<string>): (p: Option<string>)
    ensures p.Some? <==> auth.Some? && auth.value != ""
    ensures p.Some? ==> 2 <= |p.value| <= 17 && p.value[|p.value| - 1] == Ellipsis
    ensures p.Some? ==> |p.value| - 1 <= |auth.value| && p.value[..|p.value| - 1] == auth.value[..|p.value| - 1]
    ensures p.Some? ==> |p.value| - 1 == (if |auth.value| < 16 then |auth.value| else 16)
  {
    if auth.None? || auth.value == "" then None
    else
      var n := if |auth.value| < 16 then |auth.value| else 16;
      var r := auth.value[..n] + [Ellipsis];
      assert r[..n] == auth.value[..n];
      Some(r)
  }

  /** Only the first sixteen characters reach the preview: extending a
      credential that already has sixteen leaves its preview unchanged. */
  lemma PreviewIgnoresTail(auth: string, more: string)
    requires |auth| >= 16
    ensures Preview(Some(auth + more)) == Preview(Some(auth))
  {
    assert (auth + more)[..16] == auth[..16];
  }

  /** What the `headers` endpoint returns. */
  datatype HeaderReport = HeaderReport(
    authorization: Option<string>,
    header: Option<Value>,
    payload: Option<Value>)

  /** Decoding is attempted only for a truthy token containing a dot. */
  predicate Decodable(token: Option<string>) {
    token.Some? && token.value != "" && '.' in token.value
  }

  /** The `headers` endpoint: the credential preview, and the first two
      dot-separated segments of the token decoded after the alphabet fix-up,
      each left null on its own when it does not decode. */
  function DebugHeaders(headers: map<string, string>, decode: string -> Option<Value>): (r: HeaderReport)
    ensures r.authorization == Preview(AuthHeader(headers))
    ensures !Decodable(BearerToken(AuthHeader(headers))) ==> r.header.None? && r.payload.None?
    ensures var token := BearerToken(AuthHeader(headers));
            Decodable(token) ==>
              && |SplitOn(token.value, '.')| >= 2
              && r.header == decode(Base64UrlToStd(SplitOn(token.value, '.')[0]))
              && r.payload == decode(Base64UrlToStd(SplitOn(token.value, '.')[1]))
  {
    var auth := AuthHeader(headers);
    var token := BearerToken(auth);
    if !Decodable(token) then HeaderReport(Preview(auth), None, None)
    else
      var segments := SplitOn(token.value, '.');
      SplitOnCount(token.value, '.');
      assert multiset(token.value)['.'] > 0;
      HeaderReport(Preview(auth), decode(Base64UrlToStd(segments[0])), decode(Base64UrlToStd(segments[1])))
  }

  /** Without an authorization header everything in the report is null. */
  lemma NoHeaderAllNull(headers: map<string, string>, decode: string -> Option<Value>)
    requires "authorization" !in headers && "Authorization" !in headers
    ensures DebugHeaders(headers, decode) == HeaderReport(None, None, None)
  {
  }

  /** A token without a dot is never handed to the decoder: the report is the
      same whatever the decoder does. */
  lemma NoDotNoDecode(headers: map<string, string>, d1: string -> Option<Value>, d2: string -> Option<Value>)
    requires !Decodable(BearerToken(AuthHeader(headers)))
    ensures DebugHeaders(headers, d1) == DebugHeaders(headers, d2)
  {
  }

  /** A compact token `h.p.s` behind a scheme word: the header and payload
      reports are the decoded first and second segments. */
  lemma CompactTokenSegments(scheme: string, h: string, p: string, s: string,
                             headers: map<string, string>, decode: string -> Option<Value>)
    requires scheme != "" && NoSpace(scheme)
    requires NoSpace(h) && NoSpace(p) && NoSpace(s) && '.' !in h && '.' !in p && '.' !in s
    requires headers == map["authorization" := scheme + " " + (h + "." + p + "." + s)]
    ensures DebugHeaders(headers, decode).header == decode(Base64UrlToStd(h))
    ensures DebugHeaders(headers, decode).payload == decode(Base64UrlToStd(p))
  {
    var token := h + "." + p + "." + s;
    assert Join([h, p, s], '.') == token by {
      assert [h, p, s][1..] == [p, s];
      assert [p, s][1..] == [s];
      assert Join([p, s], '.') == p + "." + s;
      assert Join([h, p, s], '.') == h + "." + (p + "." + s);
    }
    assert NoSpace(token) by {
      forall i | 0 <= i < |token| ensures !IsSpace(token[i]) {
        if i < |h| { assert token[i] == h[i]; }
        else if i == |h| { assert token[i] == '.'; }
        else if i < |h| + 1 + |p| { assert token[i] == p[i - |h| - 1]; }
        else if i == |h| + 1 + |p| { assert token[i] == '.'; }
        else { assert token[i] == s[i - |h| - |p| - 2]; }
      }
    }
    assert token[|h|] == '.';
    BearerTokenOfScheme(scheme, token);
    SplitJoin([h, p, s], '.');
  }

  /** What the `me` endpoint returns. */
  datatype WhoAmIReport = WhoAmIReport(user: CurrentUserDecorator.Param, authorization: Option<string>)

  /** `whoami`: the attached identity as the decorator hands it over, and the
      raw authorization header, lower-case name first. */
  function WhoAmI(request: Request): (r: WhoAmIReport)
    ensures request.user.None? ==> r.user == CurrentUserDecorator.Undefined
    ensures request.user.Some? ==> r.user == CurrentUserDecorator.WholeUser(request.user.value)
    ensures r.authorization == AuthHeader(request.headers)
  {
    WhoAmIReport(CurrentUserDecorator.CurrentUser(None, request), AuthHeader(request.headers))
  }
}

=== FILE: guard.dfy ===
/** src/auth/guards/supabase-auth.guard.ts: the authorization guard. The
    route's public marker, the settled outcome of the stateless passport
    check and the remote verifier are inputs; the guard's verdict, the
    request it leaves behind and the relay slot it leaves behind are the
    output. Promise and Observable resolution is not modelled: the stateless
    outcome arrives already settled. */
module Guard {
  import opened Wrappers
  import opened Interfaces
  import TokenStore
  import AuthService
  import JwtStrategy

  /** A value thrown by the stateless check, by what `asUnauthorized`
      distinguishes: an `UnauthorizedException`, another `Error`, a string,
      or anything else; for anything else only its JavaScript truthiness
      matters (`0`, `NaN`, `false` and `null` are falsy, objects truthy). */
  datatype Thrown =
    | ThrownUnauthorized(exception: Unauthorized)
    | ThrownError(message: string)
    | ThrownString(text: string)
    | ThrownOther(truthy: bool)
  {
    /** How the value fares in a boolean test: errors are objects and so
        truthy, a string is truthy when it is non-empty. */
    predicate IsTruthy() {
      match this
      case ThrownUnauthorized(_) => true
      case ThrownError(_) => true
      case ThrownString(text) => text != ""
      case ThrownOther(truthy) => truthy
    }
  }

  /** The settled outcome of `super.canActivate`: `true` with the identity
      passport attached to the request, `false`, or a throw. */
  datatype StatelessOutcome =
    | Activated(user: AuthUser)
    | Declined
    | Raised(error: Thrown)

  /** What `canActivate` settles to (a boolean, or the exception it throws),
      the request as it leaves the guard, and the relay slot afterwards. */
  datatype Activation = Activation(
    result: Result<bool, Unauthorized>,
    request: Request,
    relay: TokenStore.Slot)

  const AuthenticationFailed := "Authentication failed"

  /** `asUnauthorized`: an `UnauthorizedException` is kept as it is, an
      `Error` or a string supplies the message, anything else (or no error
      at all) gives the generic exception. */
  function AsUnauthorized(candidate: Option<Thrown>): (e: Unauthorized)
    ensures candidate.Some? && candidate.value.ThrownUnauthorized? ==> e == candidate.value.exception
    ensures candidate.Some? && candidate.value.ThrownError? ==> e.message == Some(candidate.value.message)
    ensures candidate.Some? && candidate.value.ThrownString? ==> e.message == Some(candidate.value.text)
    ensures candidate.None? || candidate.value.ThrownOther? ==> e.message.None?
  {
    match candidate
    case None => Unauthorized(None)
    case Some(ThrownUnauthorized(u)) => u
    case Some(ThrownError(m)) => Unauthorized(Some(m))
    case Some(ThrownString(s)) => Unauthorized(Some(s))
    case Some(ThrownOther(_)) => Unauthorized(None)
  }

  /** Normalising twice is normalising once: rethrowing the result of
      `asUnauthorized` through it changes nothing. */
  lemma AsUnauthorizedIdempotent(candidate: Option<Thrown>)
    ensures AsUnauthorized(Some(ThrownUnauthorized(AsUnauthorized(candidate))))
         == AsUnauthorized(candidate)
  {
  }

  /** `handleRequest`: the user comes back exactly when the error is absent
      or falsy and a user is present; otherwise it throws 'Authentication
      failed'. A user is an object, so a present one is always truthy. */
  function HandleRequest(err: Option<Thrown>, user: Option<AuthUser>): (r: Result<AuthUser, Unauthorized>)
    ensures r.Success? <==> (err.None? || !err.value.IsTruthy()) && user.Some?
    ensures r.Success? ==> r.value == user.value
    ensures r.Failure? ==> r.error == Unauthorized(Some(AuthenticationFailed))
  {
    if (err.Some? && err.value.IsTruthy()) || user.None? then Failure(Unauthorized(Some(AuthenticationFailed)))
    else Success(user.value)
  }

  /** Only the error's truthiness counts: a falsy throw, such as the empty
      string, lets a present user through as if nothing had been thrown. */
  lemma FalsyErrorIgnored(err: Thrown, user: Option<AuthUser>)
    requires !err.IsTruthy()
    ensures HandleRequest(Some(err), user) == HandleRequest(None, user)
  {
  }

  /** How passport's `canActivate` settles around the strategy: `verified`
      is the payload of a token whose signature and expiry checked out, or
      `None` when they did not. A validator failure is handed to
      `handleRequest` as its error, a signature failure as a missing user. */
  function PassportOutcome(verified: Option<ClaimSet>): (o: StatelessOutcome)
    ensures o.Activated? <==> verified.Some? && JwtStrategy.HasSubject(verified.value)
    ensures o.Activated? ==> o.user == JwtStrategy.Validate(verified.value).value
    ensures !o.Activated? ==> o == Raised(ThrownUnauthorized(Unauthorized(Some(AuthenticationFailed))))
  {
    var handled :=
      match verified
      case None => HandleRequest(None, None)
      case Some(c) =>
        match JwtStrategy.Validate(c)
        case Failure(e) => HandleRequest(Some(ThrownUnauthorized(e)), None)
        case Success(u) => HandleRequest(None, Some(u));
    match handled
    case Success(u) => Activated(u)
    case Failure(e) => Raised(ThrownUnauthorized(e))
  }

  /** A payload without a subject is indistinguishable, to the guard, from a
      token whose signature failed. */
  lemma MalformedPayloadLooksLikeBadSignature(c: ClaimSet)
    requires !JwtStrategy.HasSubject(c)
    ensures PassportOutcome(Some(c)) == PassportOutcome(None)
  {
  }

  /** `attemptSupabaseFallback`: consume the relay; without a truthy token,
      or when the remote verifier finds no user, throw `asUnauthorized` of
      the original error; otherwise attach the remote identity and accept. */
  function AttemptFallback(svc: AuthService.Service, request: Request, relay: TokenStore.Slot,
                           originalError: Option<Thrown>): (a: Activation)
    ensures a.relay == TokenStore.Consume(relay).slot
    ensures a.result.Success? <==>
              Truthy(relay) && AuthService.GetUserFromAccessToken(svc, relay.value).Some?
    ensures a.result.Success? ==> a.result.value
    ensures a.result.Success? ==>
              a.request == request.(user := AuthService.GetUserFromAccessToken(svc, relay.value))
    ensures a.result.Failure? ==> a.request == request && a.result.error == AsUnauthorized(originalError)
  {
    var taken := TokenStore.Consume(relay);
    if !Truthy(taken.token) then
      Activation(Failure(AsUnauthorized(originalError)), request, taken.slot)
    else
      match AuthService.GetUserFromAccessToken(svc, taken.token.value)
      case None => Activation(Failure(AsUnauthorized(originalError)), request, taken.slot)
      case Some(u) => Activation(Success(true), request.(user := Some(u)), taken.slot)
  }

  /** `canActivate`: a public route is accepted at once; a stateless `true`
      is accepted with passport's identity; a stateless `false` or throw
      goes to the fallback, the throw supplying the original error. It never
      settles to `false`: it accepts or throws `Unauthorized`. */
  function CanActivate(isPublic: bool, stateless: StatelessOutcome, svc: AuthService.Service,
                       request: Request, relay: TokenStore.Slot): (a: Activation)
    ensures a.result.Success? ==> a.result.value
    ensures isPublic ==> a == Activation(Success(true), request, relay)
    ensures !isPublic && stateless.Activated? ==>
              a == Activation(Success(true), request.(user := Some(stateless.user)), relay)
    ensures !isPublic && stateless.Declined? ==> a == AttemptFallback(svc, request, relay, None)
    ensures !isPublic && stateless.Raised? ==>
              a == AttemptFallback(svc, request, relay, Some(stateless.error))
    ensures a.result.Failure? ==> a.request == request
  {
    if isPublic then Activation(Success(true), request, relay)
    else
      match stateless
      case Activated(u) => Activation(Success(true), request.(user := Some(u)), relay)
      case Declined => AttemptFallback(svc, request, relay, None)
      case Raised(e) => AttemptFallback(svc, request, relay, Some(e))
  }

  /** A public route is accepted without looking at the stateless outcome,
      the remote verifier or the relay: the verdict is the same whatever
      they are, and request and relay are left untouched. */
  lemma PublicRouteSkipsChecks(s1: StatelessOutcome, s2: StatelessOutcome,
                               svc1: AuthService.Service, svc2: AuthService.Service,
                               request: Request, relay: TokenStore.Slot)
    ensures CanActivate(true, s1, svc1, request, relay) == CanActivate(true, s2, svc2, request, relay)
    ensures CanActivate(true, s1, svc1, request, relay).relay == relay
  {
  }

  /** A stateless `true` is accepted without consuming the relay or calling
      the remote verifier: the verdict does not depend on the verifier. */
  lemma StatelessSuccessSkipsFallback(u: AuthUser, svc1: AuthService.Service, svc2: AuthService.Service,
                                      request: Request, relay: TokenStore.Slot)
    ensures CanActivate(false, Activated(u), svc1, request, relay)
         == CanActivate(false, Activated(u), svc2, request, relay)
    ensures CanActivate(false, Activated(u), svc1, request, relay).relay == relay
    ensures CanActivate(false, Activated(u), svc1, request, relay).request.user == Some(u)
  {
  }

  /** A stateless `false` and a stateless throw take the same fallback: same
      acceptance, same request, same relay; only the rejection's message can
      differ, and only the throw supplies it. */
  lemma DeclinedAndRaisedShareFallback(err: Thrown, svc: AuthService.Service,
                                       request: Request, relay: TokenStore.Slot)
    ensures var d := CanActivate(false, Declined, svc, request, relay);
            var t := CanActivate(false, Raised(err), svc, request, relay);
            && d.result.Success? == t.result.Success?
            && d.request == t.request && d.relay == t.relay
            && (d.result.Failure? ==> d.result.error == Unauthorized(None)
                                      && t.result.error == AsUnauthorized(Some(err)))
  {
  }

  /** On fallback with an empty slot or an empty-string token the request is
      rejected and the remote verifier is not consulted. */
  lemma EmptyRelayRejects(stateless: StatelessOutcome, svc1: AuthService.Service,
                          svc2: AuthService.Service, request: Request, relay: TokenStore.Slot)
    requires !stateless.Activated? && !Truthy(relay)
    ensures CanActivate(false, stateless, svc1, request, relay).result.Failure?
    ensures CanActivate(false, stateless, svc1, request, relay)
         == CanActivate(false, stateless, svc2, request, relay)
  {
  }

  /** On fallback, a remote lookup that finds nothing rejects the request. */
  lemma RemoteMissRejects(stateless: StatelessOutcome, svc: AuthService.Service,
                          request: Request, relay: TokenStore.Slot)
    requires !stateless.Activated? && Truthy(relay)
    requires AuthService.GetUserFromAccessToken(svc, relay.value).None?
    ensures CanActivate(false, stateless, svc, request, relay).result.Failure?
    ensures CanActivate(false, stateless, svc, request, relay).relay.None?
  {
  }

  /** One request in sequence: the interceptor relays a non-empty token and
      the stateless check fails. The guard verifies exactly that token,
      accepts iff the provider resolves it, attaches precisely the remote
      identity, and leaves the relay empty either way. */
  lemma RelayedTokenIsVerified(stateless: StatelessOutcome, svc: AuthService.Service,
                               request: Request, before: TokenStore.Slot, token: string)
    requires !stateless.Activated? && token != ""
    ensures var a := CanActivate(false, stateless, svc, request, TokenStore.SetToken(before, token));
            && a.relay.None?
            && (a.result.Success? <==> AuthService.GetUserFromAccessToken(svc, token).Some?)
            && (a.result.Success? ==> a.request.user == AuthService.GetUserFromAccessToken(svc, token))
  {
  }

  /** Whichever path accepts a protected request through passport and the
      validator, the identity it attaches carries its own id as the `sub` of
      its raw claims. */
  lemma AttachedIdentityIsConsistent(verified: Option<ClaimSet>, svc: AuthService.Service,
                                     request: Request, relay: TokenStore.Slot)
    requires request.user.None?
    ensures var a := CanActivate(false, PassportOutcome(verified), svc, request, relay);
            a.request.user.Some? ==>
              && a.result.Success?
              && "sub" in a.request.user.value.rawClaims
              && a.request.user.value.rawClaims["sub"] == Str(a.request.user.value.id)
  {
    var a := CanActivate(false, PassportOutcome(verified), svc, request, relay);
    if a.request.user.Some? {
      if PassportOutcome(verified).Activated? {
        var c := verified.value;
        assert a.request.user.value == JwtStrategy.Validate(c).value;
      } else {
        var found := AuthService.GetUserFromAccessToken(svc, relay.value);
        assert a.request.user == found;
      }
    }
  }
}

=== FILE: interfaces.dfy ===
/** The identity data of src/auth/interfaces/supabase-user.interface.ts: the
    claims of an access token and the resolved identity built from them, plus
    the parts of an HTTP request the auth layer reads and writes. */
module Interfaces {
  import opened Wrappers

  /** A decoded JSON value: the source's `unknown`. */
  datatype Value =
    | Null
    | Bool(b: bool)
    | Num(n: real)
    | Str(s: string)
    | Arr(items: seq<Value>)
    | Obj(fields: map<string, Value>)

  /** `Record<string, unknown>`: the metadata maps. */
  type Metadata = map<string, Value>

  /** A decoded token payload as a JSON object. */
  type ClaimSet = map<string, Value>

  /** The claims the payload interface names; any other key is an
      additional claim. */
  const NamedClaims: set<string> :=
    {"aud", "exp", "sub", "email", "role", "app_metadata", "user_metadata"}

  /** `SupabaseJwtPayload`: `sub` is the one required claim, the other named
      claims are optional, and `extra` carries the additional claims. */
  datatype JwtPayload = JwtPayload(
    sub: string,
    aud: Option<string>,
    exp: Option<real>,
    email: Option<string>,
    role: Option<string>,
    appMetadata: Option<Metadata>,
    userMetadata: Option<Metadata>,
    extra: ClaimSet)
  {
    /** An additional claim never reuses the key of a named one. */
    predicate Valid() {
      extra.Keys !! NamedClaims
    }
  }

  /** `SupabaseAuthUser`: `id` and `rawClaims` are always present, every other
      field is optional. */
  datatype AuthUser = AuthUser(
    id: string,
    email: Option<string>,
    role: Option<string>,
    aud: Option<string>,
    appMetadata: Option<Metadata>,
    userMetadata: Option<Metadata>,
    rawClaims: ClaimSet)

  /** An `UnauthorizedException`, by the message it was constructed with
      (`None`: the framework's generic message). */
  datatype Unauthorized = Unauthorized(message: Option<string>)

  /** What the auth layer sees of an HTTP request: the identity attached to
      `request.user` and the (lower- or mixed-case) header map. */
  datatype Request = Request(user: Option<AuthUser>, headers: map<string, string>)

  /** The claim `key` read as a string; absent when missing or not a string. */
  function StrClaim(c: ClaimSet, key: string): Option<string> {
    if key in c && c[key].Str? then Some(c[key].s) else None
  }

  function NumClaim(c: ClaimSet, key: string): Option<real> {
    if key in c && c[key].Num? then Some(c[key].n) else None
  }

  function ObjClaim(c: ClaimSet, key: string): Option<Metadata> {
    if key in c && c[key].Obj? then Some(c[key].fields) else None
  }

  /** A JSON object that has the shape of `SupabaseJwtPayload`: a string
      `sub`, and every other named claim either missing or of its type. */
  predicate WellTyped(c: ClaimSet) {
    && "sub" in c && c["sub"].Str?
    && ("aud" in c ==> c["aud"].Str?)
    && ("exp" in c ==> c["exp"].Num?)
    && ("email" in c ==> c["email"].Str?)
    && ("role" in c ==> c["role"].Str?)
    && ("app_metadata" in c ==> c["app_metadata"].Obj?)
    && ("user_metadata" in c ==> c["user_metadata"].Obj?)
  }

  function StrValue(v: Option<string>): Option<Value> {
    if v.Some? then Some(Str(v.value)) else None
  }

  function ObjValue(v: Option<Metadata>): Option<Value> {
    if v.Some? then Some(Obj(v.value)) else None
  }

  /** The JSON value a named claim takes in a payload, if present. */
  function NamedValue(p: JwtPayload, key: string): Option<Value> {
    match key
    case "sub" => Some(Str(p.sub))
    case "aud" => StrValue(p.aud)
    case "exp" => if p.exp.Some? then Some(Num(p.exp.value)) else None
    case "email" => StrValue(p.email)
    case "role" => StrValue(p.role)
    case "app_metadata" => ObjValue(p.appMetadata)
    case "user_metadata" => ObjValue(p.userMetadata)
    case _ => None
  }

  predicate Carries(p: JwtPayload, key: string) {
    if key in NamedClaims then NamedValue(p, key).Some? else key in p.extra
  }

  /** The payload as the JSON object that carries it: the named claims from
      the typed fields, every other key from `extra`. */
  function ToClaims(p: JwtPayload): (c: ClaimSet)
    ensures "sub" in c && c["sub"] == Str(p.sub)
  {
    map k | k in p.extra.Keys + NamedClaims && Carries(p, k) ::
      if k in NamedClaims then NamedValue(p, k).value else p.extra[k]
  }

  /** The typed view of a JSON object, when it has the payload's shape. */
  function FromClaims(c: ClaimSet): (r: Option<JwtPayload>)
    ensures r.Some? <==> WellTyped(c)
    ensures r.Some? ==> r.value.Valid() && r.value.sub == c["sub"].s
  {
    if WellTyped(c) then
      Some(JwtPayload(
        c["sub"].s,
        StrClaim(c, "aud"), NumClaim(c, "exp"),
        StrClaim(c, "email"), StrClaim(c, "role"),
        ObjClaim(c, "app_metadata"), ObjClaim(c, "user_metadata"),
        c - NamedClaims))
    else None
  }

  /** The named claims of a valid payload are read back unchanged. */
  lemma ToClaimsReads(p: JwtPayload)
    requires p.Valid()
    ensures WellTyped(ToClaims(p))
    ensures StrClaim(ToClaims(p), "aud") == p.aud
    ensures NumClaim(ToClaims(p), "exp") == p.exp
    ensures StrClaim(ToClaims(p), "email") == p.email
    ensures StrClaim(ToClaims(p), "role") == p.role
    ensures ObjClaim(ToClaims(p), "app_metadata") == p.appMetadata
    ensures ObjClaim(ToClaims(p), "user_metadata") == p.userMetadata
    ensures ToClaims(p) - NamedClaims == p.extra
  {
    var c := ToClaims(p);
    forall k | k in p.extra
      ensures k in c - NamedClaims && c[k] == p.extra[k]
    {
      assert k !in NamedClaims;
    }
    assert (c - NamedClaims).Keys == p.extra.Keys;
  }

  /** Typed payload to JSON object and back is the identity. */
  lemma PayloadRoundTrip(p: JwtPayload)
    requires p.Valid()
    ensures FromClaims(ToClaims(p)) == Some(p)
  {
    ToClaimsReads(p);
  }

  /** JSON object of payload shape to typed payload and back is the identity. */
  lemma ClaimsRoundTrip(c: ClaimSet)
    requires WellTyped(c)
    ensures ToClaims(FromClaims(c).value) == c
  {
    var p := FromClaims(c).value;
    var d := ToClaims(p);
    forall k | k in c
      ensures k in d && d[k] == c[k]
    {
      if k !in NamedClaims {
        assert k in p.extra;
      }
    }
    forall k | k in d
      ensures k in c
    {
      if k !in NamedClaims {
        assert k in p.extra;
      }
    }
    assert d.Keys == c.Keys;
  }

  /** `sub` is the only required claim: the object holding nothing else has
      the payload's shape, and no object without it does. */
  lemma OnlySubjectRequired(sub: string, c: ClaimSet)
    ensures WellTyped(map["sub" := Str(sub)])
    ensures "sub" !in c ==> !WellTyped(c)
    ensures FromClaims(map["sub" := Str(sub)])
         == Some(JwtPayload(sub, None, None, None, None, None, None, map[]))
  {
    var m := map["sub" := Str(sub)];
    assert (m - NamedClaims).Keys == {};
  }

  /** Additional claims under new keys keep a payload well-typed and land in
      `extra` without disturbing the named claims. */
  lemma AdditionalClaimsAllowed(c: ClaimSet, more: ClaimSet)
    requires WellTyped(c)
    requires more.Keys !! NamedClaims
    ensures WellTyped(c + more)
    ensures FromClaims(c + more) == Some(FromClaims(c).value.(extra := (c - NamedClaims) + more))
  {
    assert "sub" !in more && "email" !in more && "aud" !in more && "exp" !in more;
    assert "role" !in more && "app_metadata" !in more && "user_metadata" !in more;
    var cm := c + more;
    assert (cm - NamedClaims).Keys == ((c - NamedClaims) + more).Keys;
    assert cm - NamedClaims == (c - NamedClaims) + more;
    assert StrClaim(cm, "aud") == StrClaim(c, "aud") && NumClaim(cm, "exp") == NumClaim(c, "exp");
    assert StrClaim(cm, "email") == StrClaim(c, "email") && StrClaim(cm, "role") == StrClaim(c, "role");
    assert ObjClaim(cm, "app_metadata") == ObjClaim(c, "app_metadata");
    assert ObjClaim(cm, "user_metadata") == ObjClaim(c, "user_metadata");
  }
}

=== FILE: jwt_strategy.dfy ===
/** The claim validator of the stateless JWT strategy, as its unit test in
    src/auth/strategies/supabase-jwt.strategy.spec.ts pins it down: the token
    payload becomes a `SupabaseAuthUser`, and a payload without a subject is
    rejected. The strategy's own source is not part of this model. */
module JwtStrategy {
  import opened Wrappers
  import opened Interfaces

  /** A payload names a subject when `sub` is a non-empty string. */
  predicate HasSubject(c: ClaimSet) {
    "sub" in c && c["sub"].Str? && c["sub"].s != ""
  }

  /** `validate(payload)`: the identity keeps the subject as its id, passes
      the other claims through and keeps the whole payload as `rawClaims`. */
  function Validate(c: ClaimSet): (r: Result<AuthUser, Unauthorized>)
    ensures r.Failure? <==> !HasSubject(c)
    ensures r.Success? ==> r.value.id == c["sub"].s && r.value.id != ""
    ensures r.Success? ==> r.value.rawClaims == c
  {
    if !HasSubject(c) then Failure(Unauthorized(None))
    else
      Success(AuthUser(
        c["sub"].s,
        StrClaim(c, "email"),
        StrClaim(c, "role"),
        StrClaim(c, "aud"),
        ObjClaim(c, "app_metadata"),
        ObjClaim(c, "user_metadata"),
        c))
  }

  /** For every payload of the declared shape with a subject, `validate`
      gives the identity the strategy test expects: `sub` becomes `id`,
      `email`, `role` and `aud` pass through, the metadata maps are renamed
      with their values unchanged, and `rawClaims` is the payload itself. */
  lemma ValidateMapsPayload(p: JwtPayload)
    requires p.Valid() && p.sub != ""
    ensures Validate(ToClaims(p)) == Success(AuthUser(
      p.sub, p.email, p.role, p.aud, p.appMetadata, p.userMetadata, ToClaims(p)))
  {
    ToClaimsReads(p);
  }

  /** A payload with no `sub` claim yields no identity. */
  lemma ValidateRejectsMissingSubject(c: ClaimSet)
    requires "sub" !in c
    ensures Validate(c) == Failure(Unauthorized(None))
  {
  }
}

=== FILE: strings.dfy ===
/** The JavaScript string operations the source relies on: `trim`,
    `toLowerCase`, `split(',')` and `split(/\s+/)`. Strings are sequences of
    characters; UTF-16 code units are not modelled. */
module Strings {

  /** The characters JavaScript treats as whitespace (the WhiteSpace and
      LineTerminator productions of ECMA-262), both in `String.prototype.trim`
      and in the regular-expression class `\s`. */
  predicate IsSpace(c: char) {
    || c == '\t' || c == '\n' || c == '\U{000B}' || c == '\U{000C}' || c == '\r'
    || c == ' ' || c == '\U{00A0}' || c == '\U{1680}'
    || ('\U{2000}' <= c <= '\U{200A}')
    || c == '\U{2028}' || c == '\U{2029}' || c == '\U{202F}' || c == '\U{205F}'
    || c == '\U{3000}' || c == '\U{FEFF}'
  }

  predicate AllSpace(s: string) {
    forall i :: 0 <= i < |s| ==> IsSpace(s[i])
  }

  predicate NoSpace(s: string) {
    forall i :: 0 <= i < |s| ==> !IsSpace(s[i])
  }

  /** Neither starts nor ends with whitespace. */
  predicate IsTrimmed(s: string) {
    s == [] || (!IsSpace(s[0]) && !IsSpace(s[|s| - 1]))
  }

  /** Drops the leading whitespace. */
  function TrimStart(s: string): (r: string)
    ensures |r| <= |s| && r == s[|s| - |r|..]
    ensures AllSpace(s[..|s| - |r|])
    ensures r == [] || !IsSpace(r[0])
  {
    if |s| > 0 && IsSpace(s[0]) then
      var r := TrimStart(s[1..]);
      SkipSpaceHead(s, r);
      r
    else s
  }

  /** The step of `TrimStart`: a suffix of `s[1..]` that only whitespace
      precedes is a suffix of `s` that only whitespace precedes, when `s`
      starts with whitespace. */
  lemma SkipSpaceHead(s: string, r: string)
    requires |s| > 0 && IsSpace(s[0])
    requires |r| <= |s| - 1 && r == s[1..][|s| - 1 - |r|..]
    requires AllSpace(s[1..][..|s| - 1 - |r|])
    ensures r == s[|s| - |r|..]
    ensures AllSpace(s[..|s| - |r|])
  {
    assert s[..|s| - |r|] == [s[0]] + s[1..][..|s| - 1 - |r|];
    assert s[1..][|s| - 1 - |r|..] == s[|s| - |r|..];
  }

  /** Drops the trailing whitespace. */
  function TrimEnd(s: string): (r: string)
    ensures |r| <= |s| && r == s[..|r|]
    ensures AllSpace(s[|r|..])
    ensures r == [] || !IsSpace(r[|r| - 1])
  {
    if |s| > 0 && IsSpace(s[|s| - 1]) then
      var r := TrimEnd(s[..|s| - 1]);
      assert s[|r|..] == s[..|s| - 1][|r|..] + [s[|s| - 1]];
      r
    else s
  }

  /** How many characters `Trim` removes from the front of `s`. */
  function TrimOffset(s: string): nat
    ensures TrimOffset(s) <= |s|
  {
    |s| - |TrimStart(s)|
  }

  /** `String.prototype.trim`: the result is a slice of the input, only
      whitespace lies outside the slice, and the slice itself has none at
      either end. */
  function Trim(s: string): (r: string)
    ensures IsTrimmed(r)
    ensures TrimOffset(s) + |r| <= |s| && r == s[TrimOffset(s)..TrimOffset(s) + |r|]
    ensures AllSpace(s[..TrimOffset(s)]) && AllSpace(s[TrimOffset(s) + |r|..])
  {
    var t := TrimStart(s);
    var r := TrimEnd(t);
    TrimmedSlice(s, TrimOffset(s), t, r);
    r
  }

  /** The facts `Trim` combines, stated over any strings with the shapes of
      `TrimStart` and `TrimEnd` results: a prefix `r` of the suffix `t` of `s`
      that starts at `k`, with only whitespace cut off on either side, is a
      trimmed slice of `s`. */
  lemma TrimmedSlice(s: string, k: nat, t: string, r: string)
    requires k + |t| == |s| && t == s[k..] && AllSpace(s[..k])
    requires t == [] || !IsSpace(t[0])
    requires |r| <= |t| && r == t[..|r|] && AllSpace(t[|r|..])
    requires r == [] || !IsSpace(r[|r| - 1])
    ensures IsTrimmed(r)
    ensures k + |r| <= |s| && r == s[k..k + |r|]
    ensures AllSpace(s[..k]) && AllSpace(s[k + |r|..])
  {
    assert t[|r|..] == s[k + |r|..];
    if r != [] {
      assert r[0] == t[0];
    }
  }

  lemma {:induction false} TrimStartSkips(a: string, t: string)
    requires AllSpace(a)
    requires t == [] || !IsSpace(t[0])
    ensures TrimStart(a + t) == t
    decreases |a|
  {
    if a == [] {
      assert a + t == t;
    } else {
      assert (a + t)[1..] == a[1..] + t;
      TrimStartSkips(a[1..], t);
    }
  }

  lemma {:induction false} TrimEndSkips(t: string, b: string)
    requires AllSpace(b)
    requires t == [] || !IsSpace(t[|t| - 1])
    ensures TrimEnd(t + b) == t
    decreases |b|
  {
    if b == [] {
      assert t + b == t;
    } else {
      assert (t + b)[..|t + b| - 1] == t + b[..|b| - 1];
      TrimEndSkips(t, b[..|b| - 1]);
    }
  }

  /** `Trim` is determined by its contract: surrounding a trimmed string
      with whitespace on both sides and trimming gives it back. */
  lemma TrimExact(a: string, m: string, b: string)
    requires AllSpace(a) && AllSpace(b) && IsTrimmed(m)
    ensures Trim(a + m + b) == m
  {
    if m == [] {
      assert a + m + b == a + b + [];
      TrimStartSkips(a + b, []);
    } else {
      assert a + m + b == a + (m + b);
      TrimStartSkips(a, m + b);
      TrimEndSkips(m, b);
    }
  }

  /** A trimmed string is its own trim. */
  lemma TrimOfTrimmed(s: string)
    requires IsTrimmed(s)
    ensures Trim(s) == s
  {
    TrimExact([], s, []);
    assert [] + s + [] == s;
  }

  lemma TrimIdempotent(s: string)
    ensures Trim(Trim(s)) == Trim(s)
  {
    TrimOfTrimmed(Trim(s));
  }

  /** `s.trim()` is empty exactly when `s` is all whitespace. */
  lemma TrimEmptyIffAllSpace(s: string)
    ensures Trim(s) == [] <==> AllSpace(s)
  {
    if AllSpace(s) {
      TrimExact(s, [], []);
      assert s + [] + [] == s;
    }
  }

  /** ASCII lower-casing of one character. */
  function LowerChar(c: char): char {
    if 'A' <= c <= 'Z' then (c as int + 32) as char else c
  }

  /** `String.prototype.toLowerCase`, restricted to ASCII letters. */
  function Lower(s: string): (r: string)
    ensures |r| == |s|
  {
    seq(|s|, i requires 0 <= i < |s| => LowerChar(s[i]))
  }

  predicate IsLower(s: string) {
    forall i :: 0 <= i < |s| ==> !('A' <= s[i] <= 'Z')
  }

  /** Lower-casing changes no whitespace, keeps a trimmed string trimmed,
      produces lower-case text and is idempotent. */
  lemma LowerFacts(s: string)
    ensures IsLower(Lower(s))
    ensures Lower(Lower(s)) == Lower(s)
    ensures IsTrimmed(s) ==> IsTrimmed(Lower(s))
  {
  }

  /** `s.split(sep)` for a one-character separator: the pieces between
      consecutive separators, empty pieces included. */
  function SplitOn(s: string, sep: char): (parts: seq<string>)
    ensures |parts| >= 1
    ensures forall i :: 0 <= i < |parts| ==> sep !in parts[i]
    decreases |s|
  {
    if |s| == 0 then [""]
    else
      var rest := SplitOn(s[1..], sep);
      if s[0] == sep then [""] + rest
      else [[s[0]] + rest[0]] + rest[1..]
  }

  /** There is one more piece than there are separators. */
  lemma {:induction false} SplitOnCount(s: string, sep: char)
    ensures |SplitOn(s, sep)| == multiset(s)[sep] + 1
    decreases |s|
  {
    if |s| > 0 {
      SplitOnCount(s[1..], sep);
      assert s == [s[0]] + s[1..];
      assert multiset(s) == multiset([s[0]]) + multiset(s[1..]);
    }
  }

  /** `parts.join(sep)`. */
  function Join(parts: seq<string>, sep: char): string
    requires |parts| >= 1
  {
    if |parts| == 1 then parts[0] else parts[0] + [sep] + Join(parts[1..], sep)
  }

  lemma JoinCons(c: char, parts: seq<string>, sep: char)
    requires |parts| >= 1
    ensures Join([[c] + parts[0]] + parts[1..], sep) == [c] + Join(parts, sep)
  {
    var q := [[c] + parts[0]] + parts[1..];
    assert q[1..] == parts[1..];
  }

  /** Joining the pieces of a split gives back the input. */
  lemma {:induction false} JoinSplit(s: string, sep: char)
    ensures Join(SplitOn(s, sep), sep) == s
    decreases |s|
  {
    if |s| > 0 {
      var rest := SplitOn(s[1..], sep);
      JoinSplit(s[1..], sep);
      if s[0] == sep {
        assert ([""] + rest)[1..] == rest;
      } else {
        JoinCons(s[0], rest, sep);
      }
      assert s == [s[0]] + s[1..];
    }
  }

  lemma {:induction false} SplitOnPrefix(x: string, t: string, sep: char)
    requires sep !in x
    ensures SplitOn(x + t, sep) == [x + SplitOn(t, sep)[0]] + SplitOn(t, sep)[1..]
    decreases |x|
  {
    var p := SplitOn(t, sep);
    if x == [] {
      assert x + t == t;
      assert x + p[0] == p[0];
      assert p == [p[0]] + p[1..];
    } else {
      var y := x + t;
      assert y[0] == x[0] && x[0] in x;
      assert y[1..] == x[1..] + t;
      SplitOnPrefix(x[1..], t, sep);
      var rest := SplitOn(y[1..], sep);
      assert rest == [x[1..] + p[0]] + p[1..];
      assert SplitOn(y, sep) == [[y[0]] + rest[0]] + rest[1..];
      assert rest[0] == x[1..] + p[0] && rest[1..] == p[1..];
      assert [x[0]] + (x[1..] + p[0]) == x + p[0];
    }
  }

  /** Splitting the join of separator-free pieces gives back the pieces. */
  lemma {:induction false} SplitJoin(parts: seq<string>, sep: char)
    requires |parts| >= 1
    requires forall i :: 0 <= i < |parts| ==> sep !in parts[i]
    ensures SplitOn(Join(parts, sep), sep) == parts
    decreases |parts|
  {
    if |parts| == 1 {
      SplitOnPrefix(parts[0], [], sep);
      assert parts[0] + [] == parts[0];
    } else {
      var tail := Join(parts[1..], sep);
      SplitJoin(parts[1..], sep);
      var u := [sep] + tail;
      assert u[0] == sep && u[1..] == tail;
      var q := SplitOn(u, sep);
      assert q == [""] + parts[1..];
      assert q[0] == "" && q[1..] == parts[1..];
      assert Join(parts, sep) == parts[0] + u;
      SplitOnPrefix(parts[0], u, sep);
      assert parts[0] + "" == parts[0];
      assert parts == [parts[0]] + parts[1..];
    }
  }

  /** `s.split(/\s+/)`: the fields between maximal runs of whitespace; a
      leading or trailing run yields an empty first or last field. */
  function SplitSpaceRuns(s: string): (fields: seq<string>)
    ensures |fields| >= 1
    ensures forall i :: 0 <= i < |fields| ==> NoSpace(fields[i])
    decreases |s|
  {
    if |s| == 0 then [""]
    else if IsSpace(s[0]) then [""] + SplitSpaceRuns(TrimStart(s[1..]))
    else
      var rest := SplitSpaceRuns(s[1..]);
      [[s[0]] + rest[0]] + rest[1..]
  }

  lemma {:induction false} SplitSpaceRunsPrefix(x: string, t: string)
    requires NoSpace(x)
    ensures SplitSpaceRuns(x + t) == [x + SplitSpaceRuns(t)[0]] + SplitSpaceRuns(t)[1..]
    decreases |x|
  {
    var p := SplitSpaceRuns(t);
    if x == [] {
      assert x + t == t;
      assert x + p[0] == p[0];
      assert p == [p[0]] + p[1..];
    } else {
      var y := x + t;
      assert y[0] == x[0] && !IsSpace(x[0]);
      assert y[1..] == x[1..] + t;
      SplitSpaceRunsPrefix(x[1..], t);
      var rest := SplitSpaceRuns(y[1..]);
      assert rest == [x[1..] + p[0]] + p[1..];
      assert SplitSpaceRuns(y) == [[y[0]] + rest[0]] + rest[1..];
      assert rest[0] == x[1..] + p[0] && rest[1..] == p[1..];
      assert [x[0]] + (x[1..] + p[0]) == x + p[0];
    }
  }

  lemma JoinHead(parts: seq<string>, sep: char)
    requires |parts| >= 1 && parts[0] != []
    ensures Join(parts, sep) != [] && Join(parts, sep)[0] == parts[0][0]
  {
  }

  /** `fields[0] + runs[0] + fields[1] + ... + fields[|fields| - 1]`: fields
      separated by arbitrary whitespace runs. */
  function JoinRuns(fields: seq<string>, runs: seq<string>): (r: string)
    requires |fields| == |runs| + 1
    ensures |fields[0]| <= |r| && r[..|fields[0]|] == fields[0]
    decreases |runs|
  {
    if |runs| == 0 then fields[0]
    else fields[0] + (runs[0] + JoinRuns(fields[1..], runs[1..]))
  }

  /** A leading whitespace run, of any length, yields one empty field and is
      otherwise skipped. */
  lemma SplitSpaceRunsLeadingRun(w: string, t: string)
    requires w != [] && AllSpace(w)
    requires t == [] || !IsSpace(t[0])
    ensures SplitSpaceRuns(w + t) == [""] + SplitSpaceRuns(t)
  {
    assert (w + t)[1..] == w[1..] + t;
    TrimStartSkips(w[1..], t);
  }

  /** Splitting fields separated by non-empty whitespace runs of any length
      gives back the fields. The first and last field may be empty (a
      leading or trailing run); every field in between is not, since two
      adjacent runs would be one run. */
  lemma {:induction false} SplitSpaceRunsJoinRuns(fields: seq<string>, runs: seq<string>)
    requires |fields| == |runs| + 1
    requires forall i :: 0 <= i < |fields| ==> NoSpace(fields[i])
    requires forall i :: 0 < i < |fields| - 1 ==> fields[i] != []
    requires forall j :: 0 <= j < |runs| ==> runs[j] != [] && AllSpace(runs[j])
    ensures SplitSpaceRuns(JoinRuns(fields, runs)) == fields
    decreases |runs|
  {
    var f := fields[0];
    if |runs| == 0 {
      SplitSpaceRunsPrefix(f, []);
      assert f + [] == f;
    } else {
      var rest := JoinRuns(fields[1..], runs[1..]);
      SplitSpaceRunsJoinRuns(fields[1..], runs[1..]);
      assert rest == [] || !IsSpace(rest[0]) by {
        if |runs| >= 2 {
          assert fields[1] != [] && rest[..|fields[1]|] == fields[1];
          assert rest[0] == fields[1][0];
        } else {
          assert rest == fields[1];
        }
      }
      SplitSpaceRunsLeadingRun(runs[0], rest);
      var p := SplitSpaceRuns(runs[0] + rest);
      assert p[0] == "" && p[1..] == fields[1..];
      SplitSpaceRunsPrefix(f, runs[0] + rest);
      assert f + "" == f;
      assert fields == [f] + fields[1..];
    }
  }

  /** `n` runs of one space each. */
  function SingleSpaces(n: nat): (runs: seq<string>)
    ensures |runs| == n
    ensures forall j :: 0 <= j < n ==> runs[j] == " "
  {
    seq(n, _ => " ")
  }

  /** A single-space join is a join by runs of length one. */
  lemma {:induction false} JoinSpacesAsRuns(fields: seq<string>)
    requires |fields| >= 1
    ensures Join(fields, ' ') == JoinRuns(fields, SingleSpaces(|fields| - 1))
    decreases |fields|
  {
    if |fields| > 1 {
      JoinSpacesAsRuns(fields[1..]);
      assert SingleSpaces(|fields| - 1)[1..] == SingleSpaces(|fields| - 2);
    }
  }

  /** Splitting a single-space join of whitespace-free fields, none of the
      inner ones empty, gives back the fields: the case of runs of length
      one. */
  lemma {:induction false} SplitSpaceRunsJoin(fields: seq<string>)
    requires |fields| >= 1
    requires forall i :: 0 <= i < |fields| ==> NoSpace(fields[i])
    requires forall i :: 0 < i < |fields| - 1 ==> fields[i] != []
    ensures SplitSpaceRuns(Join(fields, ' ')) == fields
  {
    var runs := SingleSpaces(|fields| - 1);
    forall j | 0 <= j < |runs| ensures runs[j] != [] && AllSpace(runs[j]) {
      assert runs[j] == " ";
    }
    JoinSpacesAsRuns(fields);
    SplitSpaceRunsJoinRuns(fields, runs);
  }
}

=== FILE: token_store.dfy ===
/** src/auth/token-store.ts: the relay that carries the raw bearer token from
    the request interceptor to the guard. The process-wide property that
    holds it is modelled as one optional string threaded through the calls;
    the four operations are pure functions of it. */
module TokenStore {
  import opened Wrappers

  /** The token stored under the global key, if any. Only `SetToken` writes
      the key, so whatever it holds is a string. */
  type Slot = Option<string>

  /** `setAuthToken`: the slot holds exactly the new token, whatever it held
      before; there is no queue. */
  function SetToken(slot: Slot, token: string): (s: Slot)
    ensures Peek(s) == Some(token)
  {
    Some(token)
  }

  /** `peekAuthToken`: the stored token, read without changing the slot. */
  function Peek(slot: Slot): (t: Option<string>)
    ensures t.Some? <==> slot.Some?
    ensures t.Some? ==> t.value == slot.value
  {
    slot
  }

  /** What `consumeAuthToken` returns, and the slot it leaves behind. */
  datatype Taken = Taken(token: Option<string>, slot: Slot)

  /** `consumeAuthToken`: returns what `Peek` returns; the slot is emptied
      only when that token is truthy, so an empty-string token stays. */
  function Consume(slot: Slot): (r: Taken)
    ensures r.token == Peek(slot)
    ensures Truthy(r.token) ==> r.slot.None?
    ensures !Truthy(r.token) ==> r.slot == slot
  {
    var token := Peek(slot);
    if Truthy(token) then Taken(token, None) else Taken(token, slot)
  }

  /** `clearAuthToken`: the slot ends empty whatever it held. */
  function Clear(slot: Slot): (s: Slot)
    ensures s.None?
    ensures Peek(s).None? && Consume(s) == Taken(None, s)
  {
    if slot.Some? then None else slot
  }

  /** After `set(t)`, `peek` returns `t`. That peeking leaves the slot as it
      was holds by construction: `Peek` returns no new slot. */
  lemma SetThenPeek(slot: Slot, t: string)
    ensures Peek(SetToken(slot, t)) == Some(t)
  {
  }

  /** A second `set` before any `consume` discards the first token. */
  lemma SetOverwrites(slot: Slot, first: string, second: string)
    ensures SetToken(SetToken(slot, first), second) == SetToken(slot, second)
    ensures Consume(SetToken(SetToken(slot, first), second)).token == Some(second)
  {
  }

  /** Two consumes after setting a non-empty token: the token, then nothing. */
  lemma ConsumeTwice(slot: Slot, t: string)
    requires t != ""
    ensures Consume(SetToken(slot, t)).token == Some(t)
    ensures Consume(Consume(SetToken(slot, t)).slot) == Taken(None, None)
  {
  }

  /** Consuming an empty slot returns nothing and changes nothing. */
  lemma ConsumeEmpty()
    ensures Consume(None) == Taken(None, None)
  {
  }

  /** Consuming an empty-string token returns it but leaves it stored, so
      every later consume returns it again. */
  lemma ConsumeEmptyString(slot: Slot)
    ensures Consume(SetToken(slot, "")) == Taken(Some(""), Some(""))
    ensures Consume(Consume(SetToken(slot, "")).slot) == Taken(Some(""), Some(""))
  {
  }

  /** Clearing is idempotent. */
  lemma ClearIdempotent(slot: Slot)
    ensures Clear(Clear(slot)) == Clear(slot)
  {
  }
}

=== FILE: users.dfy ===
/** src/users/users.service.ts: local user records keyed by the identity
    provider's subject id. The Prisma `user` table is an in-memory map from
    `supabaseId` to record. */
module Users {
  import opened Wrappers
  import opened Interfaces
  import opened Strings

  /** `sanitizeEmail`: absent for a missing or empty input; otherwise the
      trimmed, lower-cased address, absent again when nothing but
      whitespace was given. */
  function SanitizeEmail(candidate: Option<string>): (r: Option<string>)
    ensures candidate.None? || candidate.value == "" ==> r.None?
    ensures candidate.Some? && AllSpace(candidate.value) ==> r.None?
    ensures r.Some? <==> candidate.Some? && Trim(candidate.value) != ""
    ensures r.Some? ==> r.value != "" && IsTrimmed(r.value) && IsLower(r.value)
  {
    if candidate.None? || candidate.value == "" then None
    else
      var normalized := Lower(Trim(candidate.value));
      LowerFacts(Trim(candidate.value));
      if |normalized| > 0 then Some(normalized) else None
  }

  /** Whitespace around an address is dropped and its letters lower-cased. */
  lemma SanitizeEmailNormalises(before: string, address: string, after: string)
    requires AllSpace(before) && AllSpace(after)
    requires IsTrimmed(address) && address != ""
    ensures SanitizeEmail(Some(before + address + after)) == Some(Lower(address))
  {
    TrimExact(before, address, after);
  }

  lemma SanitizeEmailIdempotent(candidate: Option<string>)
    ensures SanitizeEmail(SanitizeEmail(candidate)) == SanitizeEmail(candidate)
  {
    var r := SanitizeEmail(candidate);
    if r.Some? {
      var t := Trim(candidate.value);
      LowerFacts(t);
      TrimOfTrimmed(r.value);
    }
  }

  /** A metadata entry `resolveMetadataString` accepts: a string whose trim
      is non-empty, that is, one that is not all whitespace
      (`Strings.TrimEmptyIffAllSpace`). */
  predicate Usable(m: Metadata, key: string) {
    key in m && m[key].Str? && !AllSpace(m[key].s)
  }

  /** `resolveMetadataString`: the trimmed value of the first key, in list
      order, whose entry is a non-blank string; absent when the metadata is
      absent or no key qualifies. */
  function ResolveMetadataString(metadata: Option<Metadata>, keys: seq<string>): (r: Option<string>)
    ensures r.None? <==> metadata.None? || forall i :: 0 <= i < |keys| ==> !Usable(metadata.value, keys[i])
    ensures r.Some? ==> r.value != "" && IsTrimmed(r.value)
    ensures r.Some? ==> exists i :: 0 <= i < |keys| && Usable(metadata.value, keys[i])
                                    && r.value == Trim(metadata.value[keys[i]].s)
    decreases |keys|
  {
    if metadata.None? || |keys| == 0 then None
    else if Usable(metadata.value, keys[0]) then Some(Trim(metadata.value[keys[0]].s))
    else
      var r := ResolveMetadataString(metadata, keys[1..]);
      assert forall i :: 1 <= i < |keys| ==> keys[i] == keys[1..][i - 1];
      r
  }

  /** The first usable key wins: every key before it is skipped and its
      trimmed value is the result. */
  lemma {:induction false} ResolvePicksFirst(m: Metadata, keys: seq<string>, i: nat)
    requires i < |keys| && Usable(m, keys[i])
    requires forall j :: 0 <= j < i ==> !Usable(m, keys[j])
    ensures ResolveMetadataString(Some(m), keys) == Some(Trim(m[keys[i]].s))
    decreases i
  {
    if i > 0 {
      assert keys[1..][i - 1] == keys[i];
      ResolvePicksFirst(m, keys[1..], i - 1);
    }
  }

  /** The trimmed value of `key`, when it is usable. */
  function Picked(m: Metadata, key: string): Option<string> {
    if Usable(m, key) then Some(Trim(m[key].s)) else None
  }

  lemma PicksSecond(m: Metadata, a: string, b: string, c: string)
    requires !Usable(m, a) && Usable(m, b)
    ensures ResolveMetadataString(Some(m), [a, b, c]) == Picked(m, b)
  {
    ResolvePicksFirst(m, [a, b, c], 1);
  }

  lemma PicksThird(m: Metadata, a: string, b: string, c: string)
    requires !Usable(m, a) && !Usable(m, b)
    ensures ResolveMetadataString(Some(m), [a, b, c]) == Picked(m, c)
  {
    if Usable(m, c) {
      ResolvePicksFirst(m, [a, b, c], 2);
    }
  }

  /** Three keys are tried in order: the first usable one decides. */
  lemma ResolveThree(m: Metadata, a: string, b: string, c: string)
    ensures ResolveMetadataString(Some(m), [a, b, c])
         == if Usable(m, a) then Picked(m, a)
            else if Usable(m, b) then Picked(m, b)
            else Picked(m, c)
  {
    if Usable(m, a) {
      ResolvePicksFirst(m, [a, b, c], 0);
    } else if Usable(m, b) {
      PicksSecond(m, a, b, c);
    } else {
      PicksThird(m, a, b, c);
    }
  }

  const DisplayNameKeys: seq<string> := ["full_name", "name", "displayName"]
  const PhoneKeys: seq<string> := ["phone", "phone_number", "mobile"]

  /** The display name prefers `full_name`, then `name`, then `displayName`. */
  lemma DisplayNamePriority(m: Metadata)
    ensures ResolveMetadataString(Some(m), DisplayNameKeys)
         == if Usable(m, "full_name") then Picked(m, "full_name")
            else if Usable(m, "name") then Picked(m, "name")
            else Picked(m, "displayName")
  {
    ResolveThree(m, "full_name", "name", "displayName");
  }

  /** The phone number prefers `phone`, then `phone_number`, then `mobile`. */
  lemma PhonePriority(m: Metadata)
    ensures ResolveMetadataString(Some(m), PhoneKeys)
         == if Usable(m, "phone") then Picked(m, "phone")
            else if Usable(m, "phone_number") then Picked(m, "phone_number")
            else Picked(m, "mobile")
  {
    ResolveThree(m, "phone", "phone_number", "mobile");
  }

  /** A row of the `user` table; `id` is the table's own primary key. */
  datatype UserRecord = UserRecord(
    id: string,
    supabaseId: string,
    email: Option<string>,
    displayName: Option<string>,
    phoneNumber: Option<string>)

  /** The table as a map on its unique `supabaseId` column. */
  type UserTable = t: map<string, UserRecord> | forall k :: k in t ==> t[k].supabaseId == k
    witness map[]

  /** The three columns `ensureUser` derives from an identity. */
  datatype Profile = Profile(email: Option<string>, displayName: Option<string>, phoneNumber: Option<string>)

  function ProfileOf(u: AuthUser): Profile {
    Profile(
      SanitizeEmail(u.email),
      ResolveMetadataString(u.userMetadata, DisplayNameKeys),
      ResolveMetadataString(u.userMetadata, PhoneKeys))
  }

  /** The table after an upsert, and the row it returns. */
  datatype Upserted = Upserted(table: UserTable, user: UserRecord)

  /** `findBySupabaseId`: the row with that identity id, absent exactly when
      the table has none. */
  function FindBySupabaseId(table: UserTable, supabaseId: string): (r: Option<UserRecord>)
    ensures r.Some? <==> supabaseId in table
    ensures r.Some? ==> r.value == table[supabaseId] && r.value.supabaseId == supabaseId
  {
    if supabaseId in table then Some(table[supabaseId]) else None
  }

  /** `ensureUser`: an upsert keyed by the identity's id. Create and update
      write the same derived columns; an existing row keeps its primary key
      (`freshId` is the key the database would generate on create); no other
      row changes. */
  function EnsureUser(table: UserTable, authUser: AuthUser, freshId: string): (r: Upserted)
    ensures r.table.Keys == table.Keys + {authUser.id}
    ensures FindBySupabaseId(r.table, authUser.id) == Some(r.user)
    ensures r.user.supabaseId == authUser.id
    ensures Profile(r.user.email, r.user.displayName, r.user.phoneNumber) == ProfileOf(authUser)
    ensures r.user.id == (if authUser.id in table then table[authUser.id].id else freshId)
    ensures forall k :: k in table && k != authUser.id ==> r.table[k] == table[k]
  {
    var p := ProfileOf(authUser);
    var row :=
      if authUser.id in table then
        table[authUser.id].(email := p.email, displayName := p.displayName, phoneNumber := p.phoneNumber)
      else UserRecord(freshId, authUser.id, p.email, p.displayName, p.phoneNumber);
    Upserted(table[authUser.id := row], row)
  }

  /** `ensureUser` is invisible to lookups of every other identity. */
  lemma EnsureUserKeepsOthers(table: UserTable, authUser: AuthUser, freshId: string, other: string)
    requires other != authUser.id
    ensures FindBySupabaseId(EnsureUser(table, authUser, freshId).table, other)
         == FindBySupabaseId(table, other)
  {
  }

  /** Repeating `ensureUser` for the same identity changes nothing, whatever
      key the database would have generated the second time. */
  lemma EnsureUserIdempotent(table: UserTable, authUser: AuthUser, freshId: string, freshId2: string)
    ensures var once := EnsureUser(table, authUser, freshId);
            EnsureUser(once.table, authUser, freshId2) == once
  {
    var once := EnsureUser(table, authUser, freshId);
    assert once.table[authUser.id := once.user] == once.table;
  }
}

=== FILE: wrappers.dfy ===
/** Optional values and success/failure results, standing in for the
    `undefined`/`null` returns and thrown exceptions of the TypeScript source. */
module Wrappers {

  /** `None` models a value that is `undefined` (or `null`) in the source. */
  datatype Option<+T> = None | Some(value: T)

  /** JavaScript truthiness of an optional string: present and non-empty. */
  predicate Truthy(v: Option<string>) {
    v.Some? && v.value != ""
  }

  /** `Failure` models a thrown exception whose class is the error type. */
  datatype Result<+R, +E> = Success(value: R) | Failure(error: E)
}
